=== FILE: README.md ===
# settings-resolver: the hierarchical overlay merge, in Dafny

The repository's core is a read-only overlay of an ordered list of nested
settings mappings. The first layer wins.

There are two versions of it:
- `MergedTree` in settings_resolver/merged_tree.py;
- `ChainMapTree` in ChainTreeMap.py, an older twin.

Construction works in three steps:
- It finds every key that holds a mapping in some layer.
- It raises `KeyError` if another layer gives such a key a non-mapping value.
- Otherwise it builds a child tree, recursively, over that key's sub-mappings, keeping layer order. The children go into a synthetic mapping, which is put in front of the layers only when it is non-empty.

Lookup scans this effective layer list and returns the first hit. `in` and `get` come from `abc.Mapping` on top of lookup.

The two classes differ after that:
- `MergedTree` iterates over the union of keys and converts itself to plain nested dicts with `dict()`.
- `ChainMapTree` iterates over its layer objects and reports their number as its length.

The model is functional and works on immutable values:

- `Values`:
  - A source value is `Leaf(n)` or `Node(map)`; a layer is `map<string, Value>`.
  - It defines the per-key helpers both classes share: the mapping keys (`kid_keys`/`map_keys`) and a key's values across the layers (`kmaps`/`kid_maps`).
  - It defines the nesting-depth measure that makes the recursion terminate.
- `Frames`:
  - The `_maps` state is a `Tree` of `Frame`s: `Synthetic(kids)` or `Source(layer)`.
  - It defines the shared first-hit lookup, and how a constructor assembles its frames.
- `MergedTree`:
  - `Build` is the constructor as a total function, returning `Result<Tree, set<string>>`. The failure carries every key the `KeyError` may name, because the source walks a Python `set` and so raises for whichever clashing key comes first.
  - It also holds lookup, `in`, `get`, iteration (`Keys`) and `dict()` (`ToDict`).
  - `__len__` appears twice: as written (`LenAsWritten`), and corrected (`Size`).
- `Construction`: the constructor's loop as methods (`Construct`, `ConstructChildren`, `ConstructChild`).
  - The loop walks the keys in an arbitrary order and returns one key. Whatever order it takes, it agrees with `Build`.
  - It can be told a key path to walk first at every level. When that path is a minimal clashing path (it clashes, and no proper prefix of it does), it raises the path's last key.
  - Together with `Conflicts.RaisedKeys`, this shows that every key in `Build`'s error set is the one raised for some walk order.
- `DeepMerge`: an independent reference for "acts exactly like a merged dictionary". It is a pairwise first-wins deep merge, and it is proved equal to `dict()` of the built tree.
- `ChainMapTree`: the older constructor, `kid_chain` with a bare `KeyError` modelled as `Result<Tree, ()>`, plus its iteration and length. It is proved to build the same tree as `MergedTree` and to fail on the same inputs.
- `Conflicts`: when construction fails, in terms of paths.
  - It fails exactly when some path is a mapping in one layer and a leaf in another.
  - A key lies in the error set exactly when it ends a minimal such path: one with no clash on the way down to it. This need not be a shortest clashing path. When `x` clashes at the top and `q` clashes below a clash-free `p`, both `x` and `q` lie in the error set (`ClashScenario.BothRaisable`).
- `PairScenario`, `ThreeWayScenario`, `ClashScenario`: the examples whose lookups the repository asserts in its `__main__` blocks and test/test_merge.py, restated as lemmas over the model, plus two conflicting inputs.

The model follows the code throughout. Both classes subclass `abc.Mapping`, and their docstrings (merged_tree.py:16-19, ChainTreeMap.py:9-12) promise a view that acts like a merged dictionary. Two behaviours depart from that promise:
- `ChainMapTree` iterates over its effective layers and reports their number as its length. An `abc.Mapping` yields and counts its keys.
- `MergedTree`'s `__len__` never returns; see Findings. An `abc.Mapping`'s `len` counts its distinct keys, and that corrected length is modelled as `Size`.

Conflicting layers have no merged dictionary at all. Both constructors then raise a plain `KeyError`: `MergedTree` names the key, and `ChainMapTree` names nothing.

## Model

| member | source | states |
|---|---|---|
| Values.KidValuesOrigin | settings_resolver/merged_tree.py:40 | every value collected for a key is the value some containing layer gives it, every containing layer's value is among them, and there are no more values than layers |
| Values.KidValuesSplit | settings_resolver/merged_tree.py:40 | the collected values keep layer order: the value layer `i` gives the key, if it has one, comes after the values of the layers before `i` and before those of the layers after it |
| Frames.Scan | settings_resolver/merged_tree.py:51-57 | scanning the effective layers finds nothing exactly when no layer has the key; otherwise it returns the entry of the first layer that has it |
| Frames.Lookup | settings_resolver/merged_tree.py:51-57 | `tree[key]` raises exactly when no effective layer has the key; a child-tree hit comes from the synthetic layer and a plain hit is a value stored in a source layer |
| Frames.AssembleLayout | settings_resolver/merged_tree.py:46-49 | the assembled layer list holds every source layer in order at its end, and at most one synthetic layer, in front, exactly when there are children |
| Frames.LookupAssembled | settings_resolver/merged_tree.py:47-57 | on an assembled tree a child key finds its child tree; any other key finds the value of the first source layer that has it |
| MergedTree.Build | settings_resolver/merged_tree.py:29-49 | `MergedTree(*maps)` as a total function: a failure always names at least one key (what a success builds is stated by `BuildUnfold`, `BuildLayout` and `DeepMerge.ToDictIsDeepMerge`) |
| MergedTree.BuildUnfold | settings_resolver/merged_tree.py:29-49 | construction succeeds exactly when every mapping key holds mappings in every layer that has it and its child builds; the result is the children in front of the layers |
| MergedTree.BuildLayout | settings_resolver/merged_tree.py:46-49 | a built tree's layers are the inputs in order, behind one synthetic layer that exists exactly when some layer holds a mapping and whose keys are exactly the mapping keys |
| MergedTree.ClashRaises | settings_resolver/merged_tree.py:40-42 | a mapping key that some layer gives a non-mapping value makes construction fail, and lies in `Build`'s error set |
| MergedTree.ChildFailureRaises | settings_resolver/merged_tree.py:44 | a failing child construction makes the whole construction fail, and every key in the child's error set lies in the parent's |
| MergedTree.AllChildrenBuilt | settings_resolver/merged_tree.py:38-49 | once every mapping key has its child tree, construction succeeds with exactly those children in front of the layers |
| MergedTree.FlatBuild | settings_resolver/merged_tree.py:46-49 | layers holding no nested mapping build the plain list of the layers, with no synthetic layer |
| MergedTree.LookupNested | settings_resolver/merged_tree.py:40-57 | a key that is a mapping in some layer looks up to the child tree built from exactly the sub-mappings the layers containing it give it, in layer order |
| MergedTree.LookupFirst | settings_resolver/merged_tree.py:51-57 | a key that is not a mapping key looks up to the value of the first layer that contains it, or raises when none does |
| MergedTree.LookupScalar | settings_resolver/merged_tree.py:51-57 | a key that is a leaf wherever it occurs looks up to the first containing layer's value; a key no layer contains raises |
| MergedTree.LookupNeverRawMapping | settings_resolver/merged_tree.py:47-57 | a lookup on a built tree never returns a raw source sub-mapping, only a child tree or a leaf |
| MergedTree.Keys | settings_resolver/merged_tree.py:59-60 | iteration yields exactly the keys whose lookup succeeds |
| MergedTree.KeysAreUnion | settings_resolver/merged_tree.py:59-60 | the keys of a built tree are exactly the union of the input layers' top-level keys |
| MergedTree.EmptyBuild | settings_resolver/merged_tree.py:29-57 | with zero layers, construction succeeds, there are no keys, and every lookup raises |
| MergedTree.Contains | settings_resolver/merged_tree.py:51-57 | `key in tree` holds exactly when the key is one of the tree's keys |
| MergedTree.Get | settings_resolver/merged_tree.py:51-57 | `get` returns the lookup's entry for a present key and the default for an absent one |
| MergedTree.MissingKey | settings_resolver/merged_tree.py:57 | for a key no layer contains, lookup raises, `get` returns the default and `in` is false |
| MergedTree.Size | settings_resolver/merged_tree.py:62-63 | the corrected `len`: zero exactly when every lookup raises |
| MergedTree.SizeCountsDistinctKeys | settings_resolver/merged_tree.py:62-63 | the corrected length of a built tree is the number of distinct top-level keys of its layers |
| MergedTree.LenAsWritten | settings_resolver/merged_tree.py:62-63 | `__len__` as written never returns a size, however many stack frames it is given |
| Construction.Construct | settings_resolver/merged_tree.py:29-49 | whatever order the loop walks the keys in, it succeeds exactly when `Build` does, with the same tree, and a key it raises lies in `Build`'s error set; when it walks the keys of a clashing path with no clash on the way down to it first at every level, it raises that path's last key |
| Construction.ConstructChildren | settings_resolver/merged_tree.py:37-44 | the loop either collects a child tree for exactly the mapping keys, each the construction of that key's sub-mappings, or raises a key in `Build`'s error set; when its path to walk first stops at a clash, it raises the path's last key |
| Construction.ConstructChild | settings_resolver/merged_tree.py:39-44 | one turn of the loop gives the key's child tree exactly as `Build` makes it, or raises a key in `Build`'s error set; a turn on the first key of a path that stops at a clash raises that path's last key |
| DeepMerge.DeepMerge | settings_resolver/merged_tree.py:16-19 | the reference deep merge of a layer list has exactly the union of the layers' keys |
| DeepMerge.DeepMergeNode | settings_resolver/merged_tree.py:16-19 | in the reference merge, a key that holds mappings wherever it occurs maps to the deep merge of those mappings, in layer order |
| DeepMerge.DeepMergeLeaf | settings_resolver/merged_tree.py:16-19 | in the reference merge, a key that is never a mapping maps to the first containing layer's value |
| DeepMerge.ToDictIsDeepMerge | settings_resolver/merged_tree.py:65-74 | `dict()` of a built tree equals the reference deep merge of its layers, at every depth |
| DeepMerge.SingleLayerRoundTrip | settings_resolver/merged_tree.py:65-74 | a single plain nested mapping always builds, and `dict()` gives it back unchanged |
| ChainMapTree.KidChain | ChainTreeMap.py:31-37 | `kid_chain(key)` raises the bare `KeyError` when some layer gives the key a non-mapping value; a built child chain ends with the key's sub-mappings in layer order |
| ChainMapTree.ChainBuild | ChainTreeMap.py:20-45 | `ChainMapTree(*maps)`: a built chain ends with the input layers in order, behind one synthetic layer exactly when some layer holds a mapping |
| ChainMapTree.Iter | ChainTreeMap.py:55-56 | iteration yields the effective layers themselves, and a key is found exactly when one of them defines it |
| ChainMapTree.Len | ChainTreeMap.py:58-59 | the length is the number of items iteration yields, that is, of effective layers |
| ChainMapTree.ChainAgrees | ChainTreeMap.py:20-45 | `ChainMapTree` builds exactly the tree `MergedTree` builds from the same layers, so every lookup agrees, and it fails on exactly the same layers |
| ChainMapTree.ChainLayout | ChainTreeMap.py:43-59 | iteration yields the effective layers, every input layer in order behind the synthetic layer if any; length is the number of inputs, plus one exactly when some layer holds a mapping |
| Conflicts.ClashAtKey | settings_resolver/merged_tree.py:40-42 | a one-key path clashes exactly when the key is a mapping key some containing layer gives a non-mapping value |
| Conflicts.ClashBelow | settings_resolver/merged_tree.py:40-44 | a path through a clash-free mapping key clashes exactly when the rest of the path clashes in that key's child layers |
| Conflicts.BuildFailsIffClash | settings_resolver/merged_tree.py:38-44 | construction fails exactly when some path is a mapping in one layer and a leaf in another, at any depth |
| Conflicts.RaisedUnfold | settings_resolver/merged_tree.py:42-44 | a raised key is either a clashing top-level key or a key raised by a failing child construction |
| Conflicts.StopsAtIffMinimal | settings_resolver/merged_tree.py:38-44 | walking a path's keys first, the constructor meets only clash-free mapping keys until a clash at the last key, exactly when the path clashes and none of its proper prefixes does |
| Conflicts.RaisedKeys | settings_resolver/merged_tree.py:38-44 | a key lies in `Build`'s error set exactly when it is the last key of a clashing path none of whose proper prefixes clashes; by `Construction.Construct` each such key is raised for some walk order |
| PairScenario.PairBuilds | settings_resolver/merged_tree.py:78-80 | `MergedTree(d1, d2)` builds one child tree for `c` over the two `c` mappings, in front of `d1` and `d2`, and `ChainMapTree(d1, d2)` builds the same tree |
| PairScenario.TopLevel | settings_resolver/merged_tree.py:81-98 | the example's top-level lookups: a=1, b=2, d=4, `f` raises; `in` agrees; `get` returns 1, 2, 4 and the default 40 |
| PairScenario.Nested | settings_resolver/merged_tree.py:90-92 | `c` looks up to a child tree in which c1=1, c2=2 and c3=3 |
| PairScenario.Sizes | ChainTreeMap.py:58-59 | the example has 4 distinct keys, while `ChainMapTree`'s length is its 3 effective layers |
| ThreeWayScenario.TopBuilds | settings_resolver/merged_tree.py:100-131 | the three-layer example builds |
| ThreeWayScenario.TopLeaves | settings_resolver/merged_tree.py:132-136 | a=1001, from the first of the three layers that have it, and c=1003 |
| ThreeWayScenario.PathsThroughB | settings_resolver/merged_tree.py:133-135 | b.ba.baa=1211, b.ba.bab=3212 and b.bb=1022, resolved at two nested depths |
| ThreeWayScenario.PathsThroughDE | settings_resolver/merged_tree.py:137-138 | d.da=3041 and e.ea=2051, each from a single lower layer |
| ThreeWayScenario.ChainSame | test/test_merge.py:74-81 | `ChainMapTree` builds the same tree from the three layers, so the same checks hold for it |
| ClashScenario.OnlyClash | settings_resolver/merged_tree.py:42 | when the only mapping key clashes, construction fails naming exactly that key |
| ClashScenario.OnlyChildFails | settings_resolver/merged_tree.py:44 | when the only mapping key's child fails, the parent fails naming exactly the keys the child may raise |
| ClashScenario.ShallowClash | settings_resolver/merged_tree.py:38-42 | `[{'x': 1}, {'x': {'y': 2}}]` raises `KeyError('x')`, and `ChainMapTree` raises its bare `KeyError` |
| ClashScenario.DeepClash | settings_resolver/merged_tree.py:38-44 | `[{'p': {'q': 1}}, {'p': {'q': {'r': 2}}}]` raises `KeyError('q')` from inside the child under `p`; `q` ends a clashing path with no clash on the way down to it; `ChainMapTree` fails too |
| ClashScenario.BothRaisable | settings_resolver/merged_tree.py:38-44 | `[{'x': 1, 'p': {'q': 1}}, {'x': {'y': 2}, 'p': {'q': {'r': 2}}}]` may raise `KeyError('x')` or `KeyError('q')`: `["p", "q"]` clashes with no clash on the way down to it, although the one-key path `["x"]` is a shorter clash |

## Left out

- Live-view semantics are left out. The source keeps references to the caller's mappings, so a later leaf mutation shows through. The model uses immutable values.
- Python set iteration order is left out. `Build` carries the set of keys a `KeyError` may name. `Construction.Construct` picks the next key with `:|`, except for the keys of the path it is told to walk first, and is proved correct for every choice.
- Cyclic or very deep source mappings are left out. A `Value` is finite and acyclic, so the model has no counterpart of the `RecursionError` that `MergedTree.__init__` would end in on them.
- The optional `default=None` of `get` is left out. `MergedTree.Get` takes the default as an explicit `Entry`, since the model has no `None` value.
- Leaf payloads are left out. A leaf stands for any non-mapping Python value as an `int`, because the construction never looks inside it. Non-`abc.Mapping` containers such as lists count as leaves, as in the source.
- Non-string keys are left out. Keys are strings, and the examples use only string keys.
- MergedTree.LenAsWritten: Python's recursion limit is a `fuel` parameter. The model states that no amount of fuel yields a size, not the `RecursionError` itself.
- ThreeWayScenario.Walk: a chain of lookups that hits a leaf part-way gives `None`. Python would raise `TypeError` or `KeyError` there; no example does this.
- ChainTreeMap.py:118 (`cmt.a`) is left out. It uses attribute access the class does not have. The assertion cannot pass, and no model of it would be meaningful.
- The `print` calls of the `__main__` blocks are left out. So is the `try/except` around the missing key; it is modelled as `Lookup` returning `None`.
- `settings_resolver/main.py` is not part of this model:
  - `Deferred` and `Resolver` use closures over a global mutable singleton.
  - Overrides come from YAML files and the environment through a module that is not shown.
- test/settings_django.py, test/settings_batman.py and test/test_sd.py are not part of this model. They hold module-level configuration with import side effects.
- setup.py is packaging only. It does not ship ChainTreeMap.py, yet test/test_merge.py imports `ChainMapTree` from the package. The model treats ChainTreeMap.py as that class.

## Findings

| source | as written | input that shows it | evidently intended | confidence | as-written member | corrected member |
|---|---|---|---|---|---|---|
| settings_resolver/merged_tree.py:62-63 | `__len__` returns `len(self)`, which calls `__len__` again without end | `len(MergedTree())`, or `len` of any `MergedTree` | the number of distinct top-level keys, as for any `Mapping` | high; not executed | MergedTree.LenAsWritten | MergedTree.SizeCountsDistinctKeys |

=== FILE: chain_map_tree.dfy ===
/**
  `ChainMapTree` (ChainTreeMap.py), the older twin of `MergedTree`: the same
  construction written with a `kid_chain` helper that raises a bare
  `KeyError`, the same lookup, but iteration over the effective layers
  themselves and a length that counts them.
 */
module ChainMapTree {
  import opened Wrappers
  import opened Values
  import opened Frames
  import MergedTree

  /** `kid_chain(key)`: the child tree for a mapping key, or a bare
      `KeyError` when some layer gives the key a non-mapping value. A child
      chain ends with the key's sub-mappings, in layer order. */
  function KidChain(ls: seq<Layer>, k: string): (r: Result<Tree, ()>)
    requires k in KidKeys(ls)
    ensures !AllNodes(KidValues(ls, k)) ==> r == Failure(())
    ensures r.Success? ==>
      && AllNodes(KidValues(ls, k))
      && |r.value.maps| >= |KidLayers(ls, k)|
      && r.value.maps[|r.value.maps| - |KidLayers(ls, k)|..] == Sources(KidLayers(ls, k))
    decreases LayersDepth(ls), 0
  {
    var kidMaps := KidValues(ls, k);
    if !AllNodes(kidMaps) then Failure(())
    else
      KidShallower(ls, k);
      ChainBuild(KidLayers(ls, k))
  }

  /** `ChainMapTree(*maps)`: the first failing `kid_chain` aborts the
      dictionary comprehension, otherwise the child chains are prepended
      when there are any: the layers end the chain in order, behind one
      synthetic frame exactly when some layer holds a mapping. */
  function ChainBuild(ls: seq<Layer>): (r: Result<Tree, ()>)
    ensures r.Success? ==>
      && |r.value.maps| == |ls| + (if KidKeys(ls) == {} then 0 else 1)
      && r.value.maps[|r.value.maps| - |ls|..] == Sources(ls)
    decreases LayersDepth(ls), 1
  {
    var chains := map k | k in KidKeys(ls) :: KidChain(ls, k);
    if exists k :: k in chains && chains[k].Failure? then Failure(())
    else
      var kids := ChainTrees(chains);
      AssembleLayout(kids, ls);
      Success(Assemble(kids, ls))
  }

  /** The child trees of a complete set of successful child chains. */
  function ChainTrees(chains: map<string, Result<Tree, ()>>): map<string, Tree>
    requires forall k :: k in chains ==> chains[k].Success?
  {
    map k | k in chains :: chains[k].value
  }

  /** `iter(chain)`: the effective layers themselves, not their keys; a key
      is found exactly when one of the yielded layers defines it. */
  function Iter(t: Tree): (fs: seq<Frame>)
    ensures forall k :: Lookup(t, k).Some? <==> exists i :: 0 <= i < |fs| && k in FrameKeys(fs[i])
  {
    t.maps
  }

  /** `len(chain)`: the number of effective layers, which is how many items
      iteration yields. */
  function Len(t: Tree): (n: nat)
    ensures n == |Iter(t)|
  {
    |t.maps|
  }

  /** Both constructors build the same tree from the same layers, and fail on
      the same layers (the older one without naming a key). */
  lemma {:induction false} ChainAgrees(ls: seq<Layer>)
    ensures MergedTree.Build(ls).Success? ==> ChainBuild(ls) == Success(MergedTree.Build(ls).value)
    ensures MergedTree.Build(ls).Failure? ==> ChainBuild(ls) == Failure(())
    decreases LayersDepth(ls)
  {
    KidsShallower(ls);
    var chains := map k | k in KidKeys(ls) :: KidChain(ls, k);
    forall k | k in KidKeys(ls)
      ensures KidChain(ls, k).Success? <==>
        AllNodes(KidValues(ls, k)) && MergedTree.Build(KidLayers(ls, k)).Success?
      ensures KidChain(ls, k).Success? ==> KidChain(ls, k).value == MergedTree.Build(KidLayers(ls, k)).value
    {
      if AllNodes(KidValues(ls, k)) {
        ChainAgrees(KidLayers(ls, k));
      }
    }
    MergedTree.BuildUnfold(ls);
    if MergedTree.Build(ls).Success? {
      var kids := ChainTrees(chains);
      MergedTree.MapsEqual(kids, MergedTree.KidTrees(ls));
    } else {
      var k :| k in KidKeys(ls) &&
        !(AllNodes(KidValues(ls, k)) && MergedTree.Build(KidLayers(ls, k)).Success?);
      assert k in chains && chains[k].Failure?;
    }
  }

  /** Iterating a built chain yields every input layer, in order, behind the
      synthetic frame when there is one; its length is the number of layers
      plus one exactly when some layer holds a mapping. */
  lemma ChainLayout(ls: seq<Layer>)
    requires ChainBuild(ls).Success?
    ensures var t := ChainBuild(ls).value;
      && Len(t) == |ls| + (if KidKeys(ls) == {} then 0 else 1)
      && Iter(t)[Len(t) - |ls|..] == Sources(ls)
      && (KidKeys(ls) != {} ==> Iter(t)[0].Synthetic? && Iter(t)[0].kids.Keys == KidKeys(ls))
  {
    var t := ChainBuild(ls).value;
    assert Iter(t) == t.maps && Len(t) == |t.maps|;
    if KidKeys(ls) != {} {
      assert t.maps[0].Synthetic? && t.maps[0].kids.Keys == KidKeys(ls) by {
        ChainAgrees(ls);
        MergedTree.BuildLayout(ls);
      }
    }
  }
}

=== FILE: clash_scenario.dfy ===
/**
  Construction errors on small inputs: a key that is a leaf in one layer and
  a mapping in another (merged_tree.py:38-44, ChainTreeMap.py:31-40), at the
  top and one level down.
 */
module ClashScenario {
  import opened Wrappers
  import opened Values
  import opened MergedTree
  import Conflicts
  import ChainMapTree

  /** `[{'x': 1}, {'x': {'y': 2}}]`: `x` is a leaf on top of a mapping. */
  const X1: Layer := map["x" := Leaf(1)]
  const X2: Layer := map["x" := Node(map["y" := Leaf(2)])]

  /** `[{'p': {'q': 1}}, {'p': {'q': {'r': 2}}}]`: `p` merges cleanly, but
      inside it `q` is a leaf on top of a mapping. */
  const Q1: Layer := map["q" := Leaf(1)]
  const Q2: Layer := map["q" := Node(map["r" := Leaf(2)])]
  const P1: Layer := map["p" := Node(Q1)]
  const P2: Layer := map["p" := Node(Q2)]

  /** `[{'x': 1, 'p': {'q': 1}}, {'x': {'y': 2}, 'p': {'q': {'r': 2}}}]`:
      both clashes at once, `x` at the top and `q` under `p`. */
  const B1: Layer := map["x" := Leaf(1), "p" := Node(Q1)]
  const B2: Layer := map["x" := Node(map["y" := Leaf(2)]), "p" := Node(Q2)]

  /** When the only mapping key clashes, construction fails naming exactly
      that key. */
  lemma OnlyClash(ls: seq<Layer>, k: string)
    requires KidKeys(ls) == {k} && !AllNodes(KidValues(ls, k))
    ensures Build(ls).Failure? && Build(ls).error == {k}
  {
    ClashRaises(ls, k);
    forall e | e in Build(ls).error ensures e == k {
      Conflicts.RaisedUnfold(ls, e);
    }
  }

  /** When the only mapping key is clash-free but its child construction
      fails, the parent fails naming exactly the keys the child may raise. */
  lemma OnlyChildFails(ls: seq<Layer>, k: string)
    requires KidKeys(ls) == {k} && AllNodes(KidValues(ls, k))
    requires Build(KidLayers(ls, k)).Failure?
    ensures Build(ls).Failure? && Build(ls).error == Build(KidLayers(ls, k)).error
  {
    var child := Build(KidLayers(ls, k));
    var e0 :| e0 in child.error;
    ChildFailureRaises(ls, k, e0);
    forall e | e in child.error ensures e in Build(ls).error {
      ChildFailureRaises(ls, k, e);
    }
    forall e | e in Build(ls).error ensures e in child.error {
      Conflicts.RaisedUnfold(ls, e);
    }
  }

  /** Two layers, each holding only `k`: a leaf on top of a mapping. */
  lemma LeafOverMapping(ls: seq<Layer>, k: string, n: int, m: Layer)
    requires ls == [map[k := Leaf(n)], map[k := Node(m)]]
    ensures KidKeys(ls) == {k} && !AllNodes(KidValues(ls, k))
  {
    assert k in ls[1] && ls[1][k].Node?;
    assert ls[1..] == [ls[1]] && ls[1..][1..] == [];
    assert KidValues(ls[1..], k) == [Node(m)];
    assert KidValues(ls, k) == [Leaf(n), Node(m)];
    assert !KidValues(ls, k)[0].Node?;
  }

  lemma DeepLayers(ls: seq<Layer>)
    requires ls == [P1, P2]
    ensures KidKeys(ls) == {"p"} && AllNodes(KidValues(ls, "p")) && KidLayers(ls, "p") == [Q1, Q2]
  {
    assert "p" in ls[0] && ls[0]["p"].Node?;
    assert ls[1..] == [P2] && [P2][1..] == [];
    assert KidValues([P2], "p") == [Node(Q2)];
    assert KidValues(ls, "p") == [Node(Q1), Node(Q2)];
  }

  /** `MergedTree({'x': 1}, {'x': {'y': 2}})` raises `KeyError('x')`, and
      `ChainMapTree` of the same layers raises its bare `KeyError`. */
  lemma ShallowClash(ls: seq<Layer>)
    requires ls == [X1, X2]
    ensures Build(ls).Failure? && Build(ls).error == {"x"}
    ensures ChainMapTree.ChainBuild(ls) == Failure(())
  {
    LeafOverMapping(ls, "x", 1, map["y" := Leaf(2)]);
    OnlyClash(ls, "x");
    ChainMapTree.ChainAgrees(ls);
  }

  /** `MergedTree({'p': {'q': 1}}, {'p': {'q': {'r': 2}}})` raises
      `KeyError('q')` from inside the construction of the child under `p`;
      `q` ends a clashing path with no clash above it, and `ChainMapTree` fails too. */
  lemma DeepClash(ls: seq<Layer>)
    requires ls == [P1, P2]
    ensures Build(ls).Failure? && Build(ls).error == {"q"}
    ensures exists p :: Conflicts.MinimalClash(ls, p) && p[|p| - 1] == "q"
    ensures ChainMapTree.ChainBuild(ls) == Failure(())
  {
    DeepLayers(ls);
    var qs := KidLayers(ls, "p");
    LeafOverMapping(qs, "q", 1, map["r" := Leaf(2)]);
    OnlyClash(qs, "q");
    OnlyChildFails(ls, "p");
    Conflicts.RaisedKeys(ls, "q");
    ChainMapTree.ChainAgrees(ls);
  }

  lemma BothKidKeys(ls: seq<Layer>)
    requires ls == [B1, B2]
    ensures KidKeys(ls) == {"x", "p"}
  {
    forall i, k | 0 <= i < |ls| && k in ls[i] && ls[i][k].Node? ensures k in {"x", "p"} {
      if i == 0 {
        assert k in B1;
      } else {
        assert k in B2;
      }
    }
    assert "x" in ls[1] && ls[1]["x"].Node?;
    assert "p" in ls[0] && ls[0]["p"].Node?;
  }

  lemma BothValues(ls: seq<Layer>)
    requires ls == [B1, B2]
    ensures !AllNodes(KidValues(ls, "x"))
    ensures AllNodes(KidValues(ls, "p")) && KidLayers(ls, "p") == [Q1, Q2]
  {
    assert "x" != "p" by { assert "x"[0] == 'x'; }
    assert B1["x"] == Leaf(1) && B1["p"] == Node(Q1);
    assert B2["x"] == Node(map["y" := Leaf(2)]) && B2["p"] == Node(Q2);
    assert ls[1..] == [B2] && [B2][1..] == [];
    assert KidValues([B2], "x") == [B2["x"]];
    assert KidValues(ls, "x") == [Leaf(1), Node(map["y" := Leaf(2)])];
    assert KidValues([B2], "p") == [B2["p"]];
    assert KidValues(ls, "p") == [Node(Q1), Node(Q2)];
    assert !KidValues(ls, "x")[0].Node?;
  }

  lemma BothPaths(ls: seq<Layer>)
    requires ls == [B1, B2]
    ensures Conflicts.Clash(ls, ["x"]) && Conflicts.MinimalClash(ls, ["p", "q"])
  {
    BothKidKeys(ls);
    BothValues(ls);
    Conflicts.ClashAtKey(ls, "x");
    Conflicts.ClashAtKey(ls, "p");
    assert !Conflicts.Clash(ls, ["p"]);
    assert forall n :: 1 <= n < 2 ==> ["p", "q"][..n] == ["p"];
    BothAtPQ();
    assert Conflicts.LeafAt(ls[0], ["p", "q"]) && Conflicts.MappingAt(ls[1], ["p", "q"]);
    assert Conflicts.Clash(ls, ["p", "q"]);
  }

  /** Following `p` then `q` reaches a leaf in the first layer and a mapping
      in the second. */
  lemma BothAtPQ()
    ensures Conflicts.At(Node(B1), ["p", "q"]) == Some(Leaf(1))
    ensures Conflicts.At(Node(B2), ["p", "q"]) == Some(Node(map["r" := Leaf(2)]))
  {
    assert ["p", "q"][1..] == ["q"] && ["q"][1..] == [];
    assert "p" in B1 && B1["p"] == Node(Q1) && "p" in B2 && B2["p"] == Node(Q2);
    assert Conflicts.At(Node(Q1), ["q"]) == Some(Leaf(1));
    assert Conflicts.At(Node(Q2), ["q"]) == Some(Node(map["r" := Leaf(2)]));
  }

  lemma QClash(qs: seq<Layer>)
    requires qs == [Q1, Q2]
    ensures Build(qs).Failure? && Build(qs).error == {"q"}
  {
    LeafOverMapping(qs, "q", 1, map["r" := Leaf(2)]);
    OnlyClash(qs, "q");
  }

  /** `MergedTree` of both layers above may raise `KeyError('x')` or
      `KeyError('q')`, depending on whether the set walk reaches `x` or `p`
      first. `["p", "q"]` has no clash on the way down to it, so `q` is
      raisable, although the one-key path `["x"]` is a shorter clash. */
  lemma BothRaisable(ls: seq<Layer>)
    requires ls == [B1, B2]
    ensures Build(ls).Failure? && "x" in Build(ls).error && "q" in Build(ls).error
    ensures Conflicts.Clash(ls, ["x"]) && Conflicts.MinimalClash(ls, ["p", "q"])
  {
    BothKidKeys(ls);
    BothValues(ls);
    ClashRaises(ls, "x");
    QClash([Q1, Q2]);
    ChildFailureRaises(ls, "p", "q");
    BothPaths(ls);
  }
}

=== FILE: conflicts.dfy ===
/**
  When the construction of a merged tree fails, and which keys its
  `KeyError` may name, stated without reference to the construction: a
  clash is a path (a sequence of keys followed down from the top of each
  layer) at which one layer holds a mapping and another a non-mapping
  (settings_resolver/merged_tree.py:38-44, ChainTreeMap.py:31-40).
 */
module Conflicts {
  import opened Wrappers
  import opened Values
  import opened MergedTree

  /** The value reached from `v` by following the keys of `p`, if every
      step lands on a mapping that has the next key. */
  function At(v: Value, p: seq<string>): Option<Value>
    decreases |p|
  {
    if |p| == 0 then Some(v)
    else if v.Node? && p[0] in v.children then At(v.children[p[0]], p[1..])
    else None
  }

  /** Layer `l` holds a mapping at path `p`. */
  predicate MappingAt(l: Layer, p: seq<string>)
  {
    At(Node(l), p).Some? && At(Node(l), p).value.Node?
  }

  /** Layer `l` holds a non-mapping at path `p`. */
  predicate LeafAt(l: Layer, p: seq<string>)
  {
    At(Node(l), p).Some? && At(Node(l), p).value.Leaf?
  }

  /** At path `p` one layer holds a mapping and another a non-mapping. */
  predicate Clash(ls: seq<Layer>, p: seq<string>)
  {
    && (exists i :: 0 <= i < |ls| && MappingAt(ls[i], p))
    && (exists j :: 0 <= j < |ls| && LeafAt(ls[j], p))
  }

  /** A clash with no clash on the way down to it: the only clashes a
      construction can reach, since it stops at the first one on a path. */
  predicate MinimalClash(ls: seq<Layer>, p: seq<string>)
  {
    && |p| > 0
    && Clash(ls, p)
    && forall n :: 1 <= n < |p| ==> !Clash(ls, p[..n])
  }

  lemma AtStep(l: Layer, k: string, q: seq<string>)
    ensures At(Node(l), [k] + q) == if k in l then At(l[k], q) else None
  {
    assert ([k] + q)[1..] == q;
  }

  /** A path that reaches a mapping, or anything at all, starts with a key
      the layer has, and a path that reaches a mapping passes through one. */
  lemma StepShape(l: Layer, k: string, q: seq<string>)
    ensures MappingAt(l, [k] + q) ==> k in l && l[k].Node?
    ensures LeafAt(l, [k] + q) ==> k in l
  {
    AtStep(l, k, q);
  }

  /** Below a key that holds a mapping, paths continue in that mapping. */
  lemma StepInto(l: Layer, k: string, q: seq<string>)
    requires k in l && l[k].Node?
    ensures MappingAt(l, [k] + q) == MappingAt(l[k].children, q)
    ensures LeafAt(l, [k] + q) == LeafAt(l[k].children, q)
  {
    AtStep(l, k, q);
  }

  /** The one-key path reaches the layer's own value under that key. */
  lemma AtOneKey(l: Layer, k: string)
    ensures MappingAt(l, [k]) <==> k in l && l[k].Node?
    ensures LeafAt(l, [k]) <==> k in l && l[k].Leaf?
  {
    AtStep(l, k, []);
    assert [k] + [] == [k];
  }

  /** The child layer a layer contributes under a mapping key. */
  lemma KidLayerOf(ls: seq<Layer>, k: string, i: nat) returns (n: nat)
    requires AllNodes(KidValues(ls, k)) && i < |ls| && k in ls[i]
    ensures n < |KidLayers(ls, k)| && ls[i][k] == Node(KidLayers(ls, k)[n])
  {
    var vs := KidValues(ls, k);
    KidValuesOrigin(ls, k);
    assert ls[i][k] in vs;
    n :| 0 <= n < |vs| && vs[n] == ls[i][k];
  }

  /** The layer a child layer comes from. */
  lemma LayerOfKid(ls: seq<Layer>, k: string, n: nat) returns (i: nat)
    requires AllNodes(KidValues(ls, k)) && n < |KidLayers(ls, k)|
    ensures i < |ls| && k in ls[i] && ls[i][k] == Node(KidLayers(ls, k)[n])
  {
    var vs := KidValues(ls, k);
    KidValuesOrigin(ls, k);
    assert vs[n] in vs;
    i :| 0 <= i < |ls| && k in ls[i] && ls[i][k] == vs[n];
  }

  lemma ClashDown(ls: seq<Layer>, k: string, q: seq<string>)
    requires AllNodes(KidValues(ls, k)) && Clash(ls, [k] + q)
    ensures Clash(KidLayers(ls, k), q)
  {
    var cs := KidLayers(ls, k);
    var i :| 0 <= i < |ls| && MappingAt(ls[i], [k] + q);
    var j :| 0 <= j < |ls| && LeafAt(ls[j], [k] + q);
    StepShape(ls[i], k, q);
    StepShape(ls[j], k, q);
    var n := KidLayerOf(ls, k, i);
    var m := KidLayerOf(ls, k, j);
    StepInto(ls[i], k, q);
    StepInto(ls[j], k, q);
    assert MappingAt(cs[n], q) && LeafAt(cs[m], q);
  }

  lemma ClashUp(ls: seq<Layer>, k: string, q: seq<string>)
    requires AllNodes(KidValues(ls, k)) && Clash(KidLayers(ls, k), q)
    ensures Clash(ls, [k] + q)
  {
    var cs := KidLayers(ls, k);
    var n :| 0 <= n < |cs| && MappingAt(cs[n], q);
    var m :| 0 <= m < |cs| && LeafAt(cs[m], q);
    var i := LayerOfKid(ls, k, n);
    var j := LayerOfKid(ls, k, m);
    StepInto(ls[i], k, q);
    StepInto(ls[j], k, q);
    assert MappingAt(ls[i], [k] + q) && LeafAt(ls[j], [k] + q);
  }

  /** Below a mapping key whose values are all mappings, the clashes of the
      layers are exactly the clashes of the child layers. */
  lemma ClashBelow(ls: seq<Layer>, k: string, q: seq<string>)
    requires AllNodes(KidValues(ls, k))
    ensures Clash(ls, [k] + q) <==> Clash(KidLayers(ls, k), q)
  {
    if Clash(ls, [k] + q) {
      ClashDown(ls, k, q);
    }
    if Clash(KidLayers(ls, k), q) {
      ClashUp(ls, k, q);
    }
  }

  /** A clash right under the top is a key that is a mapping in one layer and
      not in another: exactly the keys the constructor checks. */
  lemma ClashAtKey(ls: seq<Layer>, k: string)
    ensures Clash(ls, [k]) <==> k in KidKeys(ls) && !AllNodes(KidValues(ls, k))
  {
    var vs := KidValues(ls, k);
    KidValuesOrigin(ls, k);
    if k in KidKeys(ls) && !AllNodes(vs) {
      var i :| 0 <= i < |ls| && k in ls[i] && ls[i][k].Node?;
      var n :| 0 <= n < |vs| && !vs[n].Node?;
      assert vs[n] in vs;
      var j :| 0 <= j < |ls| && k in ls[j] && ls[j][k] == vs[n];
      AtOneKey(ls[i], k);
      AtOneKey(ls[j], k);
    }
    if Clash(ls, [k]) {
      var i :| 0 <= i < |ls| && MappingAt(ls[i], [k]);
      var j :| 0 <= j < |ls| && LeafAt(ls[j], [k]);
      AtOneKey(ls[i], k);
      AtOneKey(ls[j], k);
      assert ls[j][k] in vs;
    }
  }

  /** Every clash lies below a mapping key. */
  lemma ClashHead(ls: seq<Layer>, p: seq<string>)
    requires Clash(ls, p)
    ensures |p| > 0 && p[0] in KidKeys(ls) && p == [p[0]] + p[1..]
  {
    var i :| 0 <= i < |ls| && MappingAt(ls[i], p);
    var j :| 0 <= j < |ls| && LeafAt(ls[j], p);
    assert |p| > 0;
    var k, q := p[0], p[1..];
    assert p == [k] + q;
    StepShape(ls[i], k, q);
  }

  lemma {:induction false} FailureClashes(ls: seq<Layer>) returns (p: seq<string>)
    requires Build(ls).Failure?
    ensures Clash(ls, p)
    decreases LayersDepth(ls)
  {
    BuildUnfold(ls);
    var k :| k in KidKeys(ls) && !(AllNodes(KidValues(ls, k)) && Build(KidLayers(ls, k)).Success?);
    ClashAtKey(ls, k);
    if !AllNodes(KidValues(ls, k)) {
      p := [k];
    } else {
      KidShallower(ls, k);
      var q := FailureClashes(KidLayers(ls, k));
      ClashUp(ls, k, q);
      p := [k] + q;
    }
  }

  lemma {:induction false} ClashFails(ls: seq<Layer>, p: seq<string>)
    requires Clash(ls, p)
    ensures Build(ls).Failure?
    decreases |p|
  {
    ClashHead(ls, p);
    var k, q := p[0], p[1..];
    BuildUnfold(ls);
    if AllNodes(KidValues(ls, k)) {
      ClashDown(ls, k, q);
      ClashFails(KidLayers(ls, k), q);
    }
  }

  /** Construction fails exactly when the layers clash somewhere, at any
      depth (merged_tree.py:38-44: the `KeyError` of a child construction
      propagates out of its parent). */
  lemma BuildFailsIffClash(ls: seq<Layer>)
    ensures Build(ls).Failure? <==> exists p :: Clash(ls, p)
  {
    if Build(ls).Failure? {
      var p := FailureClashes(ls);
    }
    if p :| Clash(ls, p) {
      ClashFails(ls, p);
    }
  }

  /** A raised key is a clashing key at the top or a key a failing child
      construction raises. */
  lemma RaisedUnfold(ls: seq<Layer>, e: string)
    requires Build(ls).Failure? && e in Build(ls).error
    ensures (e in KidKeys(ls) && !AllNodes(KidValues(ls, e))) ||
      exists k :: k in KidKeys(ls) && AllNodes(KidValues(ls, k))
        && Build(KidLayers(ls, k)).Failure? && e in Build(KidLayers(ls, k)).error
  {
    var kids := KidResults(ls);
    BuildFailure(ls);
    if e !in Clashes(ls) {
      assert e in Errors(kids);
      var k :| k in kids && kids[k].Failure? && e in kids[k].error;
      KidResultsAreChildBuilds(ls);
      assert k in KidKeys(ls) && AllNodes(KidValues(ls, k)) && kids[k] == Build(KidLayers(ls, k));
    }
  }

  /** A minimal clash in a child extends to one in its parent. */
  lemma MinimalUp(ls: seq<Layer>, k: string, q: seq<string>)
    requires k in KidKeys(ls) && AllNodes(KidValues(ls, k)) && MinimalClash(KidLayers(ls, k), q)
    ensures MinimalClash(ls, [k] + q)
  {
    var p := [k] + q;
    ClashUp(ls, k, q);
    ClashAtKey(ls, k);
    forall n | 1 <= n < |p| ensures !Clash(ls, p[..n]) {
      if n > 1 {
        assert p[..n] == [k] + q[..n - 1];
        ClashBelow(ls, k, q[..n - 1]);
      } else {
        assert p[..n] == [k];
      }
    }
  }

  /** A minimal clash more than one key deep lies in a child that builds far
      enough to reach it. */
  lemma MinimalDown(ls: seq<Layer>, k: string, q: seq<string>)
    requires MinimalClash(ls, [k] + q) && |q| > 0
    ensures k in KidKeys(ls) && AllNodes(KidValues(ls, k)) && MinimalClash(KidLayers(ls, k), q)
  {
    var p := [k] + q;
    ClashHead(ls, p);
    assert p[..1] == [k];
    ClashAtKey(ls, k);
    ClashBelow(ls, k, q);
    forall n | 1 <= n < |q| ensures !Clash(KidLayers(ls, k), q[..n]) {
      assert p[..n + 1] == [k] + q[..n];
      ClashBelow(ls, k, q[..n]);
    }
  }

  /** The first step of a minimal clash: either the clash is the key itself,
      or the key is clash-free and the rest of the path is a minimal clash in
      its child layers, ending in the same key. */
  lemma MinimalStep(ls: seq<Layer>, p: seq<string>)
    requires MinimalClash(ls, p)
    ensures p[0] in KidKeys(ls)
    ensures |p| == 1 <==> !AllNodes(KidValues(ls, p[0]))
    ensures |p| > 1 ==> MinimalClash(KidLayers(ls, p[0]), p[1..]) && p[1..][|p| - 2] == p[|p| - 1]
  {
    ClashHead(ls, p);
    var k, q := p[0], p[1..];
    ClashAtKey(ls, k);
    if |q| == 0 {
      assert p == [k];
    } else {
      assert p[..1] == [k];
      MinimalDown(ls, k, q);
    }
  }

  /** Walking the keys of `p` from the top, each key but the last is a
      clash-free mapping key and the last one clashes: a constructor that
      takes these keys first at every level stops at the last one. */
  predicate StopsAt(ls: seq<Layer>, p: seq<string>)
    decreases |p|
  {
    && |p| > 0
    && p[0] in KidKeys(ls)
    && if AllNodes(KidValues(ls, p[0])) then StopsAt(KidLayers(ls, p[0]), p[1..]) else |p| == 1
  }

  /** The walks that stop at their last key are exactly the minimal clashes. */
  lemma {:induction false} StopsAtIffMinimal(ls: seq<Layer>, p: seq<string>)
    ensures StopsAt(ls, p) <==> MinimalClash(ls, p)
    decreases |p|
  {
    if MinimalClash(ls, p) {
      MinimalStep(ls, p);
      if |p| > 1 {
        StopsAtIffMinimal(KidLayers(ls, p[0]), p[1..]);
      }
    }
    if StopsAt(ls, p) {
      var k, q := p[0], p[1..];
      assert p == [k] + q;
      ClashAtKey(ls, k);
      if AllNodes(KidValues(ls, k)) {
        StopsAtIffMinimal(KidLayers(ls, k), q);
        MinimalUp(ls, k, q);
      } else {
        assert p == [k];
        assert MinimalClash(ls, [k]);
      }
    }
  }

  lemma {:induction false} RaisedIsMinimal(ls: seq<Layer>, e: string) returns (p: seq<string>)
    requires Build(ls).Failure? && e in Build(ls).error
    ensures MinimalClash(ls, p) && p[|p| - 1] == e
    decreases LayersDepth(ls)
  {
    RaisedUnfold(ls, e);
    if e in KidKeys(ls) && !AllNodes(KidValues(ls, e)) {
      ClashAtKey(ls, e);
      p := [e];
    } else {
      var k :| k in KidKeys(ls) && AllNodes(KidValues(ls, k))
        && Build(KidLayers(ls, k)).Failure? && e in Build(KidLayers(ls, k)).error;
      KidShallower(ls, k);
      var q := RaisedIsMinimal(KidLayers(ls, k), e);
      MinimalUp(ls, k, q);
      p := [k] + q;
    }
  }

  lemma {:induction false} MinimalIsRaised(ls: seq<Layer>, p: seq<string>)
    requires MinimalClash(ls, p)
    ensures Build(ls).Failure? && p[|p| - 1] in Build(ls).error
    decreases |p|
  {
    ClashHead(ls, p);
    var k, q := p[0], p[1..];
    if |q| == 0 {
      assert p == [k];
      ClashAtKey(ls, k);
      ClashRaises(ls, k);
    } else {
      MinimalDown(ls, k, q);
      MinimalIsRaised(KidLayers(ls, k), q);
      ChildFailureRaises(ls, k, q[|q| - 1]);
    }
  }

  /** The keys a failed construction's `KeyError` may name are exactly the
      last keys of minimal clashes (`Construction.Construct` raises each of
      them when it walks that clash's keys first). */
  lemma RaisedKeys(ls: seq<Layer>, e: string)
    ensures (Build(ls).Failure? && e in Build(ls).error) <==>
      exists p :: MinimalClash(ls, p) && p[|p| - 1] == e
  {
    if Build(ls).Failure? && e in Build(ls).error {
      var p := RaisedIsMinimal(ls, e);
    }
    if p :| MinimalClash(ls, p) && p[|p| - 1] == e {
      MinimalIsRaised(ls, p);
    }
  }
}

=== FILE: construction.dfy ===
/**
  The constructor of `MergedTree` as the source runs it
  (settings_resolver/merged_tree.py:29-49): walk the mapping keys, raise
  `KeyError(key)` at the first clashing key, let a child's `KeyError`
  propagate, and otherwise collect the child trees.

  The keys come from a Python set, whose iteration order the model leaves
  open, with one exception: the walk can be told a key path to visit first,
  at every level it reaches. That is enough to show that each key `Build`
  allows in its error set is one some iteration order really raises.
 */
module Construction {
  import opened Wrappers
  import opened Values
  import opened Frames
  import opened MergedTree
  import opened Conflicts

  /** `MergedTree(*maps)`. In any walk order it succeeds exactly when `Build`
      does, with the same tree, and a key it raises is one `Build` allows.
      When the walk takes first the keys of a clashing path `lead` with no
      clash on the way down to it, it raises the last key of that path. */
  method Construct(ls: seq<Layer>, lead: seq<string>) returns (r: Result<Tree, string>)
    ensures r.Success? ==> Build(ls) == Success(r.value)
    ensures r.Failure? ==> Build(ls).Failure? && r.error in Build(ls).error
    ensures MinimalClash(ls, lead) ==> r == Failure(lead[|lead| - 1])
    decreases LayersDepth(ls), 2
  {
    StopsAtIffMinimal(ls, lead);
    var kids := ConstructChildren(ls, lead);
    if kids.Failure? {
      return Failure(kids.error);
    }
    AllChildrenBuilt(ls, kids.value);
    r := Success(Assemble(kids.value, ls));
  }

  /** The `for key in kid_keys` loop of the constructor, visiting `lead[0]`
      first when it is a mapping key. */
  method ConstructChildren(ls: seq<Layer>, lead: seq<string>) returns (r: Result<map<string, Tree>, string>)
    ensures r.Success? ==> r.value.Keys == KidKeys(ls) && ChildrenBuilt(ls, r.value)
    ensures r.Failure? ==> Build(ls).Failure? && r.error in Build(ls).error
    ensures StopsAt(ls, lead) ==> r == Failure(lead[|lead| - 1])
    decreases LayersDepth(ls), 1
  {
    var kidKeys := KidKeys(ls);
    var kids: map<string, Tree> := map[];
    var todo := kidKeys;
    ghost var led := StopsAt(ls, lead);
    while todo != {}
      invariant todo <= kidKeys
      invariant kids.Keys == kidKeys - todo
      invariant ChildrenBuilt(ls, kids)
      invariant led ==> todo == kidKeys && lead[0] in todo
      decreases todo
    {
      var k: string;
      if |lead| > 0 && lead[0] in todo {
        k := lead[0];
      } else {
        k :| k in todo;
      }
      var child := ConstructChild(ls, k, lead);
      if child.Failure? {
        return Failure(child.error);
      }
      ChildBuilt(ls, kids, k, child.value);
      kids := kids[k := child.value];
      todo := todo - {k};
    }
    r := Success(kids);
  }

  /** A walk led by a path it stops at either stops at the first key, when
      that key clashes, or continues with the rest of the path as a minimal
      clash among the key's sub-mappings, ending at the same key. */
  lemma LeadStep(ls: seq<Layer>, lead: seq<string>)
    requires StopsAt(ls, lead)
    ensures !AllNodes(KidValues(ls, lead[0])) ==> |lead| == 1
    ensures AllNodes(KidValues(ls, lead[0])) ==>
      && |lead| > 1
      && MinimalClash(KidLayers(ls, lead[0]), lead[1..])
      && lead[1..][|lead| - 2] == lead[|lead| - 1]
  {
    if AllNodes(KidValues(ls, lead[0])) {
      StopsAtIffMinimal(KidLayers(ls, lead[0]), lead[1..]);
    }
  }

  /** One turn of the loop, for the mapping key `k`: collect its values,
      raise `KeyError(k)` when one is not a mapping, and otherwise build the
      child tree over them, passing on the rest of `lead` when `k` is its
      first key. */
  method ConstructChild(ls: seq<Layer>, k: string, lead: seq<string>) returns (r: Result<Tree, string>)
    requires k in KidKeys(ls)
    ensures r.Success? ==> AllNodes(KidValues(ls, k)) && Build(KidLayers(ls, k)) == Success(r.value)
    ensures r.Failure? ==> Build(ls).Failure? && r.error in Build(ls).error
    ensures |lead| > 0 && k == lead[0] && StopsAt(ls, lead) ==> r == Failure(lead[|lead| - 1])
    decreases LayersDepth(ls), 0
  {
    if |lead| > 0 && k == lead[0] && StopsAt(ls, lead) {
      LeadStep(ls, lead);
    }
    var kmaps := KidValues(ls, k);
    if !AllNodes(kmaps) {
      ClashRaises(ls, k);
      return Failure(k);
    }
    var rest := if |lead| > 0 && k == lead[0] then lead[1..] else [];
    KidShallower(ls, k);
    var child := Construct(KidLayers(ls, k), rest);
    if child.Failure? {
      ChildFailureRaises(ls, k, child.error);
    }
    r := child;
  }
}

=== FILE: deep_merge.dfy ===
/**
  An independent reference for what a merged tree means: the plain nested
  mapping obtained by overlaying the layers pairwise, the earlier layer
  winning every leaf and two mappings under the same key merging
  recursively. The documentation of `MergedTree` promises a view that "acts
  exactly like a merged dictionary" (settings_resolver/merged_tree.py:16-19);
  `ToDictIsDeepMerge` proves `dict()` is that dictionary.
 */
module DeepMerge {
  import opened Wrappers
  import opened Values
  import opened Frames
  import opened MergedTree

  /** Overlay `b` with `a` on top: a key present in both as mappings merges
      recursively, any other key takes `a`'s value if `a` has it. */
  function Merge2(a: Layer, b: Layer): (r: Layer)
    ensures r.Keys == a.Keys + b.Keys
    decreases Depth(Node(a))
  {
    LayerChildrenShallower(a);
    map k | k in a.Keys + b.Keys ::
      if k in a && k in b && a[k].Node? && b[k].Node? then Node(Merge2(a[k].children, b[k].children))
      else if k in a then a[k]
      else b[k]
  }

  /** Overlaying a layer on nothing gives the layer back. */
  lemma Merge2Empty(a: Layer)
    ensures Merge2(a, map[]) == a
  {
    var r := Merge2(a, map[]);
    forall k | k in r ensures r[k] == a[k] {
    }
    MapsEqual(r, a);
  }

  /** The deep merge of a layer list, first layer on top. */
  function DeepMerge(ls: seq<Layer>): (r: Layer)
    ensures r.Keys == LayerKeys(ls)
  {
    if |ls| == 0 then map[]
    else
      assert forall i :: 1 <= i < |ls| ==> ls[i] == ls[1..][i - 1];
      Merge2(ls[0], DeepMerge(ls[1..]))
  }

  lemma KidValuesStep(ls: seq<Layer>, k: string)
    requires |ls| > 0
    ensures KidValues(ls, k) == (if k in ls[0] then [ls[0][k]] else []) + KidValues(ls[1..], k)
  {
  }

  lemma ChildrenStep(v: Value, vs: seq<Value>)
    requires v.Node? && AllNodes(vs)
    ensures AllNodes([v] + vs)
    ensures Children([v] + vs) == [v.children] + Children(vs)
  {
    assert forall n :: 1 <= n < |[v] + vs| ==> ([v] + vs)[n] == vs[n - 1];
  }

  /** When the first layer holds `k`, the child layers are its mapping in
      front of the child layers of the rest. */
  lemma HeadKidLayers(ls: seq<Layer>, k: string)
    requires |ls| > 0 && k in ls[0] && AllNodes(KidValues(ls, k))
    ensures ls[0][k].Node? && AllNodes(KidValues(ls[1..], k))
    ensures KidLayers(ls, k) == [ls[0][k].children] + KidLayers(ls[1..], k)
  {
    var vr := KidValues(ls[1..], k);
    KidValuesStep(ls, k);
    assert KidValues(ls, k)[0] == ls[0][k];
    assert forall n :: 0 <= n < |vr| ==> vr[n] == KidValues(ls, k)[n + 1];
    ChildrenStep(ls[0][k], vr);
  }

  /** When the first layer lacks `k`, the child layers all come from the rest. */
  lemma TailKidLayers(ls: seq<Layer>, k: string)
    requires |ls| > 0 && k !in ls[0] && AllNodes(KidValues(ls, k))
    ensures AllNodes(KidValues(ls[1..], k))
    ensures KidLayers(ls, k) == KidLayers(ls[1..], k)
  {
    KidValuesStep(ls, k);
  }

  /** The head case of `DeepMergeNode`: the first layer's mapping overlays
      the merge of the rest's mappings, or stands alone when the rest has none. */
  lemma HeadMergeNode(ls: seq<Layer>, k: string)
    requires |ls| > 0 && k in ls[0] && AllNodes(KidValues(ls, k)) && AllNodes(KidValues(ls[1..], k))
    requires k in KidKeys(ls[1..]) ==>
      k in DeepMerge(ls[1..]) && DeepMerge(ls[1..])[k] == Node(DeepMerge(KidLayers(ls[1..], k)))
    ensures k in DeepMerge(ls) && DeepMerge(ls)[k] == Node(DeepMerge(KidLayers(ls, k)))
  {
    var rest := ls[1..];
    HeadKidLayers(ls, k);
    var c0 := ls[0][k].children;
    var krest := KidLayers(rest, k);
    assert ([c0] + krest)[1..] == krest;
    assert DeepMerge(KidLayers(ls, k)) == Merge2(c0, DeepMerge(krest));
    if k !in KidKeys(rest) {
      NodeKeyPresence(rest, k);
      assert k !in DeepMerge(rest);
      KidValuesAbsent(rest, k);
      assert krest == [];
      Merge2Empty(c0);
    }
  }

  /** A key holding mappings in every layer that has it merges to the deep
      merge of those mappings. */
  lemma {:induction false} DeepMergeNode(ls: seq<Layer>, k: string)
    requires k in KidKeys(ls) && AllNodes(KidValues(ls, k))
    ensures k in DeepMerge(ls) && DeepMerge(ls)[k] == Node(DeepMerge(KidLayers(ls, k)))
  {
    var rest := ls[1..];
    if k in ls[0] {
      HeadKidLayers(ls, k);
      if k in KidKeys(rest) {
        DeepMergeNode(rest, k);
      }
      HeadMergeNode(ls, k);
    } else {
      TailKidLayers(ls, k);
      var i :| 0 <= i < |ls| && k in ls[i] && ls[i][k].Node?;
      assert i > 0 && rest[i - 1] == ls[i];
      DeepMergeNode(rest, k);
    }
  }

  /** A key holding no mapping in any layer merges to its first layer's value. */
  lemma {:induction false} DeepMergeLeaf(ls: seq<Layer>, k: string)
    requires k !in KidKeys(ls) && First(ls, k).Some?
    ensures k in DeepMerge(ls) && DeepMerge(ls)[k] == First(ls, k).value
  {
    var rest := ls[1..];
    assert forall i :: 1 <= i < |ls| ==> ls[i] == rest[i - 1];
    if k !in ls[0] {
      forall i | 0 <= i < |rest| && k in rest[i] ensures rest[i][k].Leaf? {
        assert ls[i + 1] == rest[i];
      }
      DeepMergeLeaf(rest, k);
    }
  }

  /** `dict()` of a built tree is the deep merge of its layers: leaves come
      from the first layer that has them and mappings under the same key merge
      at every depth. */
  lemma {:induction false} ToDictIsDeepMerge(ls: seq<Layer>)
    requires Build(ls).Success?
    ensures ToDict(Build(ls).value) == DeepMerge(ls)
    decreases LayersDepth(ls)
  {
    var t := Build(ls).value;
    var d := ToDict(t);
    KeysAreUnion(ls);
    forall k | k in d ensures d[k] == DeepMerge(ls)[k] {
      if k in KidKeys(ls) {
        LookupNested(ls, k);
        KidShallower(ls, k);
        ToDictIsDeepMerge(KidLayers(ls, k));
        DeepMergeNode(ls, k);
      } else {
        LookupFirst(ls, k);
        DeepMergeLeaf(ls, k);
      }
    }
    MapsEqual(d, DeepMerge(ls));
  }

  /** A single plain nested mapping always builds, and `dict()` gives it back
      unchanged: converting an already plain tree is the identity. */
  lemma {:induction false} SingleLayerRoundTrip(d: Layer)
    ensures Build([d]).Success?
    ensures ToDict(Build([d]).value) == d
    decreases Depth(Node(d))
  {
    SingleLayerBuilds(d);
    ToDictIsDeepMerge([d]);
    assert [d][1..] == [];
    Merge2Empty(d);
  }

  lemma {:induction false} SingleLayerBuilds(d: Layer)
    ensures Build([d]).Success?
    decreases Depth(Node(d))
  {
    forall k | k in KidKeys([d])
      ensures AllNodes(KidValues([d], k)) && Build(KidLayers([d], k)).Success?
    {
      SingleKid(d, k);
      ChildShallower(Node(d), k);
      SingleLayerBuilds(d[k].children);
    }
    BuildUnfold([d]);
  }

  /** In a single layer, a mapping key's child layers are just its mapping. */
  lemma SingleKid(d: Layer, k: string)
    requires k in KidKeys([d])
    ensures d[k].Node? && AllNodes(KidValues([d], k)) && KidLayers([d], k) == [d[k].children]
  {
    assert [d][1..] == [];
    assert KidValues([d], k) == [d[k]];
  }
}

=== FILE: frames.dfy ===
/**
  The state both tree classes keep, their `_maps` list, and the lookup they
  share: scan the list in order and return the first hit
  (merged_tree.py `__getitem__`, ChainTreeMap.py `__getitem__`, which are
  the same code).
 */
module Frames {
  import opened Wrappers
  import opened Values

  /** One entry of `_maps`: the synthetic mapping of child trees the
      constructor prepends, or one of the caller's source layers. */
  datatype Frame = Synthetic(kids: map<string, Tree>) | Source(layer: Layer)

  /** A merged view: its effective layers, highest priority first. */
  datatype Tree = Tree(maps: seq<Frame>)

  /** What a lookup can return: a child tree (from the synthetic frame) or a
      value stored in a source layer. */
  datatype Entry = Child(tree: Tree) | Plain(value: Value)

  /** The keys one frame defines. */
  function FrameKeys(f: Frame): set<string>
  {
    match f
    case Synthetic(kids) => kids.Keys
    case Source(l) => l.Keys
  }

  /** `mapping[key]` on one frame. */
  function FrameGet(f: Frame, k: string): Entry
    requires k in FrameKeys(f)
  {
    match f
    case Synthetic(kids) => Child(kids[k])
    case Source(l) => Plain(l[k])
  }

  /** Frame `i` is the first frame of `frames` that defines `k`. */
  predicate HitAt(frames: seq<Frame>, k: string, i: int)
  {
    && 0 <= i < |frames|
    && k in FrameKeys(frames[i])
    && forall j :: 0 <= j < i ==> k !in FrameKeys(frames[j])
  }

  /** The `for mapping in self._maps: try: return mapping[key]` loop:
      `None` plays the final `raise KeyError(key)`. */
  function Scan(frames: seq<Frame>, k: string): (r: Option<Entry>)
    ensures r.None? <==> forall i :: 0 <= i < |frames| ==> k !in FrameKeys(frames[i])
    ensures r.Some? ==> exists i :: HitAt(frames, k, i) && r.value == FrameGet(frames[i], k)
  {
    if |frames| == 0 then None
    else if k in FrameKeys(frames[0]) then
      assert HitAt(frames, k, 0);
      Some(FrameGet(frames[0], k))
    else
      var r := Scan(frames[1..], k);
      assert forall i :: 1 <= i < |frames| ==> frames[i] == frames[1..][i - 1];
      assert forall i :: HitAt(frames[1..], k, i) ==> HitAt(frames, k, i + 1);
      r
  }

  /** `tree[key]`. */
  function Lookup(t: Tree, k: string): (r: Option<Entry>)
    ensures r.None? <==> forall i :: 0 <= i < |t.maps| ==> k !in FrameKeys(t.maps[i])
    ensures r.Some? && r.value.Child? ==>
      exists i :: 0 <= i < |t.maps| && t.maps[i].Synthetic? && k in t.maps[i].kids
        && r.value.tree == t.maps[i].kids[k]
    ensures r.Some? && r.value.Plain? ==>
      exists i :: 0 <= i < |t.maps| && t.maps[i].Source? && k in t.maps[i].layer
        && r.value.value == t.maps[i].layer[k]
  {
    Scan(t.maps, k)
  }

  /** The frames for a list of source layers, in the same order. */
  function Sources(ls: seq<Layer>): seq<Frame>
  {
    seq(|ls|, i requires 0 <= i < |ls| => Source(ls[i]))
  }

  /** The effective layer list a constructor assembles: the synthetic frame
      of child trees first, but only when it is non-empty, then the sources. */
  function Assemble(kids: map<string, Tree>, ls: seq<Layer>): (t: Tree)
    ensures |kids| == 0 ==> t.maps == Sources(ls)
    ensures |kids| > 0 ==> |t.maps| == |ls| + 1 && t.maps[0] == Synthetic(kids) && t.maps[1..] == Sources(ls)
  {
    Tree(if |kids| > 0 then [Synthetic(kids)] + Sources(ls) else Sources(ls))
  }

  /** An assembled tree holds every source layer, in order, at its end, and
      at most one synthetic frame, in front, exactly when there are children. */
  lemma AssembleLayout(kids: map<string, Tree>, ls: seq<Layer>)
    ensures var t := Assemble(kids, ls);
      && |t.maps| == |ls| + (if kids.Keys == {} then 0 else 1)
      && t.maps[|t.maps| - |ls|..] == Sources(ls)
      && (forall i :: 0 <= i < |t.maps| && t.maps[i].Synthetic? ==> i == 0 && t.maps[i].kids == kids)
      && (kids.Keys != {} ==> t.maps[0].Synthetic?)
  {
    var t := Assemble(kids, ls);
    if |kids| == 0 {
      assert t.maps[0..] == t.maps;
      assert kids.Keys == {};
    } else {
      assert forall i :: 1 <= i < |t.maps| ==> t.maps[i] == t.maps[1..][i - 1];
    }
  }

  /** Scanning plain source frames is the flat first-hit lookup. */
  lemma {:induction false} ScanSources(ls: seq<Layer>, k: string)
    ensures Scan(Sources(ls), k) == (match First(ls, k) case Some(v) => Some(Plain(v)) case None => None)
  {
    if |ls| > 0 {
      assert Sources(ls)[1..] == Sources(ls[1..]);
      ScanSources(ls[1..], k);
    }
  }

  /** Lookup over an assembled tree: a child tree for every synthetic key,
      otherwise the value of the first source layer holding the key. */
  lemma LookupAssembled(kids: map<string, Tree>, ls: seq<Layer>, k: string)
    ensures k in kids ==> Lookup(Assemble(kids, ls), k) == Some(Child(kids[k]))
    ensures k !in kids ==>
      Lookup(Assemble(kids, ls), k) == (match First(ls, k) case Some(v) => Some(Plain(v)) case None => None)
  {
    var t := Assemble(kids, ls);
    ScanSources(ls, k);
    if |kids| > 0 {
      assert t.maps[1..] == Sources(ls);
    }
  }
}

=== FILE: merged_tree.dfy ===
/**
  `MergedTree` (settings_resolver/merged_tree.py): a read-only overlay of an
  ordered list of nested mappings in which the first layer wins, built by
  giving every key that holds a mapping in some layer a child tree over that
  key's sub-mappings.
 */
module MergedTree {
  import opened Wrappers
  import opened Values
  import opened Frames

  /** `MergedTree(*maps)`. A key that is a mapping in one layer and a
      non-mapping in another raises `KeyError(key)`, also from inside a
      recursive child construction. Which key is raised depends on the
      iteration order of a Python set, so the failure carries every key the
      raised `KeyError` may name (`Construction.Construct` is the loop itself),
      and there is always at least one. */
  function Build(ls: seq<Layer>): (r: Result<Tree, set<string>>)
    ensures r.Failure? ==> r.error != {}
    decreases LayersDepth(ls), 1
  {
    var kids := KidResults(ls);
    var clashes := Clashes(ls);
    if clashes == {} && AllSucceed(kids) then Success(Assemble(Trees(kids), ls))
    else Failure(clashes + Errors(kids))
  }

  /** The keys that are a mapping in one layer and not a mapping in another. */
  function Clashes(ls: seq<Layer>): set<string>
  {
    set k | k in KidKeys(ls) && !AllNodes(KidValues(ls, k))
  }

  /** The recursive constructions of the children of every clash-free mapping key. */
  function KidResults(ls: seq<Layer>): (kids: map<string, Result<Tree, set<string>>>)
    ensures forall k :: k in kids <==> k in KidKeys(ls) && AllNodes(KidValues(ls, k))
    ensures forall k :: k in kids && kids[k].Failure? ==> kids[k].error != {}
    decreases LayersDepth(ls), 0
  {
    KidsShallower(ls);
    map k | k in KidKeys(ls) && AllNodes(KidValues(ls, k)) :: Build(KidLayers(ls, k))
  }

  /** When construction fails, and with which keys, in terms of the clashing
      keys and the child constructions. */
  lemma BuildFailure(ls: seq<Layer>)
    ensures Build(ls).Failure? <==> Clashes(ls) != {} || !AllSucceed(KidResults(ls))
    ensures Build(ls).Failure? ==> Build(ls).error == Clashes(ls) + Errors(KidResults(ls))
  {
  }

  lemma KidResult(ls: seq<Layer>, k: string)
    requires k in KidKeys(ls) && AllNodes(KidValues(ls, k))
    ensures k in KidResults(ls) && KidResults(ls)[k] == Build(KidLayers(ls, k))
  {
  }

  lemma KidResultsAreChildBuilds(ls: seq<Layer>)
    ensures forall k :: k in KidResults(ls) ==>
      AllNodes(KidValues(ls, k)) && KidResults(ls)[k] == Build(KidLayers(ls, k))
  {
  }

  predicate AllSucceed(kids: map<string, Result<Tree, set<string>>>)
  {
    forall k :: k in kids ==> kids[k].Success?
  }

  function Trees(kids: map<string, Result<Tree, set<string>>>): map<string, Tree>
    requires AllSucceed(kids)
  {
    map k | k in kids :: kids[k].value
  }

  /** Every key some failed child construction may raise. */
  function Errors(kids: map<string, Result<Tree, set<string>>>): (es: set<string>)
    ensures (exists k :: k in kids && kids[k].Failure? && kids[k].error != {}) ==> es != {}
    ensures forall k, e :: k in kids && kids[k].Failure? && e in kids[k].error ==> e in es
  {
    var es := set k, e | k in kids && kids[k].Failure? && e in kids[k].error :: e;
    assert (exists k :: k in kids && kids[k].Failure? && kids[k].error != {}) ==> es != {} by {
      if exists k :: k in kids && kids[k].Failure? && kids[k].error != {} {
        var k :| k in kids && kids[k].Failure? && kids[k].error != {};
        var e :| e in kids[k].error;
        assert e in es;
      }
    }
    es
  }

  /** Every key holding a mapping somewhere holds mappings everywhere it
      appears, and its child tree builds. */
  predicate KidsBuild(ls: seq<Layer>)
  {
    forall k :: k in KidKeys(ls) ==> AllNodes(KidValues(ls, k)) && Build(KidLayers(ls, k)).Success?
  }

  /** The child trees of a successful construction. */
  function KidTrees(ls: seq<Layer>): map<string, Tree>
    requires KidsBuild(ls)
  {
    map k | k in KidKeys(ls) :: Build(KidLayers(ls, k)).value
  }

  lemma MapsEqual<K, V>(a: map<K, V>, b: map<K, V>)
    requires forall k :: k in a <==> k in b
    requires forall k :: k in a ==> a[k] == b[k]
    ensures a == b
  {
  }

  lemma TreesAreKidTrees(ls: seq<Layer>)
    requires KidsBuild(ls)
    requires AllSucceed(KidResults(ls))
    ensures Trees(KidResults(ls)) == KidTrees(ls)
  {
    var kids := KidResults(ls);
    KidResultsAreChildBuilds(ls);
    var ts, kt := Trees(kids), KidTrees(ls);
    forall k | k in kt ensures k in ts && ts[k] == kt[k] {
      assert k in kids;
    }
    forall k | k in ts ensures k in kt {
      assert k in KidKeys(ls);
    }
    MapsEqual(ts, kt);
  }

  /** Construction succeeds exactly when every child does, and then assembles
      the child trees in front of the layers. */
  lemma BuildUnfold(ls: seq<Layer>)
    ensures Build(ls).Success? <==> KidsBuild(ls)
    ensures Build(ls).Success? ==> Build(ls).value == Assemble(KidTrees(ls), ls)
  {
    var kids := KidResults(ls);
    KidResultsAreChildBuilds(ls);
    assert Build(ls).Success? <==> Clashes(ls) == {} && AllSucceed(kids);
    if KidsBuild(ls) {
      assert forall k :: k !in Clashes(ls);
      assert AllSucceed(kids) by {
        forall k | k in kids ensures kids[k].Success? {
          assert k in KidKeys(ls);
        }
      }
      TreesAreKidTrees(ls);
    } else if Clashes(ls) == {} && AllSucceed(kids) {
      forall k | k in KidKeys(ls)
        ensures AllNodes(KidValues(ls, k)) && Build(KidLayers(ls, k)).Success?
      {
        assert k !in Clashes(ls);
        assert k in kids;
      }
      assert false;
    }
  }

  /** Effective layers: the inputs in order, behind one synthetic frame that
      exists exactly when some layer holds a mapping, and whose keys are
      exactly those keys (merged_tree.py:46-49). */
  lemma BuildLayout(ls: seq<Layer>)
    requires Build(ls).Success?
    ensures var t := Build(ls).value;
      && |t.maps| == |ls| + (if KidKeys(ls) == {} then 0 else 1)
      && t.maps[|t.maps| - |ls|..] == Sources(ls)
      && (forall i :: 0 <= i < |t.maps| && t.maps[i].Synthetic? ==> i == 0 && t.maps[i].kids.Keys == KidKeys(ls))
      && (KidKeys(ls) != {} ==> t.maps[0].Synthetic?)
  {
    BuildUnfold(ls);
    AssembleLayout(KidTrees(ls), ls);
  }

  /** A key that holds a mapping in some layer looks up to the child tree
      built from exactly the values the layers containing it give it, in
      layer order; the child resolves its own keys the same way. */
  lemma LookupNested(ls: seq<Layer>, k: string)
    requires Build(ls).Success?
    requires exists i :: 0 <= i < |ls| && k in ls[i] && ls[i][k].Node?
    ensures AllNodes(KidValues(ls, k))
    ensures Build(KidLayers(ls, k)).Success?
    ensures Lookup(Build(ls).value, k) == Some(Child(Build(KidLayers(ls, k)).value))
  {
    BuildUnfold(ls);
    LookupAssembled(KidTrees(ls), ls, k);
  }

  /** Away from the synthetic frame, lookup is the flat first-hit lookup of the layers. */
  lemma LookupFirst(ls: seq<Layer>, k: string)
    requires Build(ls).Success? && k !in KidKeys(ls)
    ensures Lookup(Build(ls).value, k) == (match First(ls, k) case Some(v) => Some(Plain(v)) case None => None)
  {
    BuildUnfold(ls);
    LookupAssembled(KidTrees(ls), ls, k);
  }

  /** A key that holds no mapping in any layer looks up to the value of the
      first layer that contains it, which is a leaf; a key no layer contains
      is not found. */
  lemma LookupScalar(ls: seq<Layer>, k: string)
    requires Build(ls).Success?
    requires forall i :: 0 <= i < |ls| && k in ls[i] ==> ls[i][k].Leaf?
    ensures forall i :: 0 <= i < |ls| && k in ls[i] && (forall j :: 0 <= j < i ==> k !in ls[j]) ==>
      Lookup(Build(ls).value, k) == Some(Plain(ls[i][k]))
    ensures (forall i :: 0 <= i < |ls| ==> k !in ls[i]) ==> Lookup(Build(ls).value, k) == None
  {
    BuildUnfold(ls);
    LookupAssembled(KidTrees(ls), ls, k);
    var f := First(ls, k);
    forall i | 0 <= i < |ls| && k in ls[i] && (forall j :: 0 <= j < i ==> k !in ls[j])
      ensures Lookup(Build(ls).value, k) == Some(Plain(ls[i][k]))
    {
      var i' :| 0 <= i' < |ls| && k in ls[i'] && f.value == ls[i'][k] && forall j :: 0 <= j < i' ==> k !in ls[j];
      assert i == i';
    }
  }

  /** A lookup on a built tree never hands back one of the source
      sub-mappings: a hit is a child tree or a leaf. */
  lemma LookupNeverRawMapping(ls: seq<Layer>, k: string)
    requires Build(ls).Success?
    ensures var r := Lookup(Build(ls).value, k);
      r.Some? && r.value.Plain? ==> r.value.value.Leaf?
  {
    if k in KidKeys(ls) {
      LookupNested(ls, k);
    } else {
      LookupFirst(ls, k);
    }
  }

  /** `iter(tree)`: the distinct keys of all effective layers. */
  function Keys(t: Tree): (ks: set<string>)
    ensures forall k :: k in ks <==> Lookup(t, k).Some?
  {
    set i, k | 0 <= i < |t.maps| && k in FrameKeys(t.maps[i]) :: k
  }

  /** The keys of a built tree are exactly the union of the layers' top-level keys. */
  lemma KeysAreUnion(ls: seq<Layer>)
    requires Build(ls).Success?
    ensures Keys(Build(ls).value) == LayerKeys(ls)
  {
    BuildUnfold(ls);
    forall k ensures k in Keys(Build(ls).value) <==> k in LayerKeys(ls) {
      LookupAssembled(KidTrees(ls), ls, k);
    }
  }

  /** Layers holding no mappings build a plain chain of the layers, with no
      synthetic frame in front. */
  lemma FlatBuild(ls: seq<Layer>)
    requires KidKeys(ls) == {}
    ensures Build(ls) == Success(Tree(Sources(ls)))
  {
    BuildUnfold(ls);
    assert KidTrees(ls) == map[];
  }

  /** Zero layers build an empty tree: no keys, every lookup fails. */
  lemma EmptyBuild()
    ensures Build([]).Success?
    ensures Keys(Build([]).value) == {}
    ensures forall k :: Lookup(Build([]).value, k) == None
  {
    assert KidKeys([]) == {};
    FlatBuild([]);
    assert Build([]).value.maps == [];
  }

  /** `key in tree` (abc.Mapping: true when `tree[key]` does not raise). */
  function Contains(t: Tree, k: string): (b: bool)
    ensures b <==> k in Keys(t)
  {
    Lookup(t, k).Some?
  }

  /** `tree.get(key, default)` (abc.Mapping: `default` when `tree[key]` raises). */
  function Get(t: Tree, k: string, default: Entry): (r: Entry)
    ensures k in Keys(t) ==> Lookup(t, k) == Some(r)
    ensures k !in Keys(t) ==> r == default
  {
    Lookup(t, k).GetOr(default)
  }

  /** A key no layer contains: `tree[key]` raises, `get` gives the default,
      `in` is false. */
  lemma MissingKey(ls: seq<Layer>, k: string, default: Entry)
    requires Build(ls).Success?
    requires forall i :: 0 <= i < |ls| ==> k !in ls[i]
    ensures Lookup(Build(ls).value, k) == None
    ensures Get(Build(ls).value, k, default) == default
    ensures !Contains(Build(ls).value, k)
  {
    KeysAreUnion(ls);
  }

  /** `tree.dict()`: the deep conversion to plain nested mappings. Every key
      of the tree maps to its lookup, with child trees converted in turn. */
  function ToDict(t: Tree): (d: map<string, Value>)
    ensures d.Keys == Keys(t)
    decreases t
  {
    map k | k in Keys(t) ::
      match Lookup(t, k).value
      case Child(c) => Node(ToDict(c))
      case Plain(v) => v
  }

  /** `len(tree)` with the size every Mapping is expected to report: the number
      of distinct keys. (The source's `__len__` does not do this; see
      `LenAsWritten`.) */
  function Size(t: Tree): (n: nat)
    ensures n == 0 <==> forall k :: Lookup(t, k).None?
  {
    assert forall k :: Lookup(t, k).Some? ==> k in Keys(t);
    |Keys(t)|
  }

  /** `len` of a built tree counts the distinct top-level keys of its layers. */
  lemma SizeCountsDistinctKeys(ls: seq<Layer>)
    requires Build(ls).Success?
    ensures Size(Build(ls).value) == |LayerKeys(ls)|
  {
    KeysAreUnion(ls);
  }

  /** `MergedTree.__len__` as written: its body is `len(self)`, which calls
      `__len__` again. `fuel` is the number of stack frames Python has left;
      `None` is the RecursionError raised when they run out. However deep the
      stack, it never returns a size. */
  function LenAsWritten(t: Tree, fuel: nat): (r: Option<nat>)
    ensures r == None
  {
    if fuel == 0 then None else LenAsWritten(t, fuel - 1)
  }

  /** A key that is a mapping in one layer and not in another makes the
      construction fail, and lies in its error set. */
  lemma ClashRaises(ls: seq<Layer>, k: string)
    requires k in KidKeys(ls) && !AllNodes(KidValues(ls, k))
    ensures Build(ls).Failure? && k in Build(ls).error
  {
    assert k in Clashes(ls);
  }

  /** A failing child construction makes the whole construction fail, and
      every key in the child's error set lies in the parent's. */
  lemma ChildFailureRaises(ls: seq<Layer>, k: string, e: string)
    requires k in KidKeys(ls) && AllNodes(KidValues(ls, k))
    requires Build(KidLayers(ls, k)).Failure? && e in Build(KidLayers(ls, k)).error
    ensures Build(ls).Failure? && e in Build(ls).error
  {
    var kids := KidResults(ls);
    KidResult(ls, k);
    assert kids[k].Failure? && e in kids[k].error;
    assert !AllSucceed(kids) && e in Errors(kids);
    BuildFailure(ls);
  }

  /** Every tree in `kids` is the construction of its key's children. */
  predicate ChildrenBuilt(ls: seq<Layer>, kids: map<string, Tree>)
  {
    forall k :: k in kids ==> AllNodes(KidValues(ls, k)) && Build(KidLayers(ls, k)) == Success(kids[k])
  }

  lemma ChildBuilt(ls: seq<Layer>, kids: map<string, Tree>, k: string, t: Tree)
    requires ChildrenBuilt(ls, kids)
    requires AllNodes(KidValues(ls, k)) && Build(KidLayers(ls, k)) == Success(t)
    ensures ChildrenBuilt(ls, kids[k := t])
  {
    var kids' := kids[k := t];
    forall j | j in kids'
      ensures AllNodes(KidValues(ls, j)) && Build(KidLayers(ls, j)) == Success(kids'[j])
    {
      if j != k {
        assert kids'[j] == kids[j];
      }
    }
  }

  /** Once every mapping key has its child tree, the construction succeeds
      with those children in front of the layers. */
  lemma AllChildrenBuilt(ls: seq<Layer>, kids: map<string, Tree>)
    requires kids.Keys == KidKeys(ls) && ChildrenBuilt(ls, kids)
    ensures Build(ls) == Success(Assemble(kids, ls))
  {
    assert KidsBuild(ls) by {
      forall k | k in KidKeys(ls)
        ensures AllNodes(KidValues(ls, k)) && Build(KidLayers(ls, k)).Success?
      {
        assert k in kids;
      }
    }
    BuildUnfold(ls);
    MapsEqual(kids, KidTrees(ls));
  }
}

=== FILE: pair_scenario.dfy ===
/**
  The first worked example, whose lookups the repository asserts in its
  `__main__` blocks and tests (merged_tree.py:77-98, ChainTreeMap.py:62-83,
  test/test_merge.py:21-41), restated over the model: two overlapping
  settings trees `d1` and `d2`.
 */
module PairScenario {
  import opened Wrappers
  import opened Values
  import opened Frames
  import opened MergedTree
  import ChainMapTree

  /** Two overlapping settings trees: `d1` and `d2`, and the sub-mappings
      they give `c`. */
  const C1: Layer := map["c1" := Leaf(1), "c2" := Leaf(2)]
  const C2: Layer := map["c2" := Leaf(4), "c3" := Leaf(3)]
  const D1: Layer := map["a" := Leaf(1), "b" := Leaf(2), "c" := Node(C1)]
  const D2: Layer := map["a" := Leaf(3), "d" := Leaf(4), "c" := Node(C2)]

  /** The tree `MergedTree(d1, d2)` builds: one child tree for `c`, in front
      of the two layers. */
  const PairChildren: map<string, Tree> := map["c" := Tree([Source(C1), Source(C2)])]
  const PairTree: Tree := Tree([Synthetic(PairChildren), Source(D1), Source(D2)])

  /** The keys of the example are distinct strings. */
  lemma Distinct()
    ensures "a" != "b" && "a" != "c" && "a" != "d" && "a" != "f"
    ensures "b" != "c" && "b" != "d" && "b" != "f" && "c" != "d" && "c" != "f" && "d" != "f"
    ensures "c1" != "c2" && "c1" != "c3" && "c2" != "c3"
  {
  }

  /** What d1, d2 and their `c` mappings hold under the keys the checks use. */
  lemma Contents()
    ensures "a" in D1 && D1["a"] == Leaf(1) && "b" in D1 && D1["b"] == Leaf(2)
    ensures "d" !in D1 && "d" in D2 && D2["d"] == Leaf(4)
    ensures "f" !in D1 && "f" !in D2
    ensures "c1" in C1 && C1["c1"] == Leaf(1) && "c2" in C1 && C1["c2"] == Leaf(2)
    ensures "c3" !in C1 && "c3" in C2 && C2["c3"] == Leaf(3)
  {
    Distinct();
  }

  lemma PairChildKeys()
    ensures KidKeys([C1, C2]) == {}
  {
    forall i, k | 0 <= i < 2 && k in [C1, C2][i] ensures [C1, C2][i][k].Leaf? {
      if i == 0 {
        assert k in C1;
      } else {
        assert k in C2;
      }
    }
  }

  lemma PairKidKeys(ls: seq<Layer>)
    requires ls == [D1, D2]
    ensures KidKeys(ls) == {"c"}
  {
    forall i, k | 0 <= i < 2 && k in ls[i] && ls[i][k].Node? ensures k == "c" {
      if i == 0 {
        assert k in D1;
      } else {
        assert k in D2;
      }
    }
    assert "c" in ls[0] && ls[0]["c"].Node?;
  }

  lemma PairKidLayers(ls: seq<Layer>)
    requires ls == [D1, D2]
    ensures AllNodes(KidValues(ls, "c")) && KidLayers(ls, "c") == [C1, C2]
  {
    assert ls[1..] == [D2];
    assert [D2][1..] == [];
    assert KidValues([D2], "c") == [Node(C2)];
    assert KidValues(ls, "c") == [Node(C1), Node(C2)];
  }

  lemma PairChildBuilds(cs: seq<Layer>)
    requires cs == [C1, C2]
    ensures Build(cs) == Success(Tree([Source(C1), Source(C2)]))
  {
    PairChildKeys();
    FlatBuild(cs);
    assert Sources(cs) == [Source(C1), Source(C2)];
  }

  /** `c` is the one mapping key, and its child tree is built from the two
      `c` mappings. */
  lemma PairChildrenBuilt(ls: seq<Layer>)
    requires ls == [D1, D2]
    ensures PairChildren.Keys == KidKeys(ls) && ChildrenBuilt(ls, PairChildren)
  {
    PairKidKeys(ls);
    PairKidLayers(ls);
    PairChildBuilds(KidLayers(ls, "c"));
  }

  lemma PairAssembled(ls: seq<Layer>)
    requires ls == [D1, D2]
    ensures Assemble(PairChildren, ls) == PairTree
  {
    assert Sources(ls) == [Source(D1), Source(D2)];
  }

  /** `MergedTree(d1, d2)` succeeds and builds exactly the expected tree, and
      `ChainMapTree(d1, d2)` builds the same one. */
  lemma PairBuilds(ls: seq<Layer>)
    requires ls == [D1, D2]
    ensures Build(ls) == Success(PairTree)
    ensures ChainMapTree.ChainBuild(ls) == Success(PairTree)
  {
    PairChildrenBuilt(ls);
    AllChildrenBuilt(ls, PairChildren);
    PairAssembled(ls);
    ChainMapTree.ChainAgrees(ls);
  }

  /** One lookup on the pair tree, walking its three frames. */
  lemma LookupA(t: Tree)
    requires t == PairTree
    ensures Lookup(t, "a") == Some(Plain(Leaf(1)))
  {
    Distinct();
    Contents();
    assert "a" !in FrameKeys(t.maps[0]) && "a" in FrameKeys(t.maps[1]);
  }

  lemma LookupB(t: Tree)
    requires t == PairTree
    ensures Lookup(t, "b") == Some(Plain(Leaf(2)))
  {
    Distinct();
    Contents();
    assert "b" !in FrameKeys(t.maps[0]) && "b" in FrameKeys(t.maps[1]);
  }

  lemma LookupD(t: Tree)
    requires t == PairTree
    ensures Lookup(t, "d") == Some(Plain(Leaf(4)))
  {
    Distinct();
    Contents();
    assert "d" !in FrameKeys(t.maps[0]) && "d" !in FrameKeys(t.maps[1]) && "d" in FrameKeys(t.maps[2]);
  }

  lemma LookupF(t: Tree)
    requires t == PairTree
    ensures Lookup(t, "f") == None
  {
    Distinct();
    Contents();
    assert "f" !in FrameKeys(t.maps[0]) && "f" !in FrameKeys(t.maps[1]) && "f" !in FrameKeys(t.maps[2]);
  }

  lemma LookupC(t: Tree)
    requires t == PairTree
    ensures Lookup(t, "c") == Some(Child(Tree([Source(C1), Source(C2)])))
  {
    assert "c" in FrameKeys(t.maps[0]);
  }

  lemma LookupC1(c: Tree)
    requires c == Tree([Source(C1), Source(C2)])
    ensures Lookup(c, "c1") == Some(Plain(Leaf(1)))
  {
    Contents();
    assert "c1" in FrameKeys(c.maps[0]);
  }

  lemma LookupC2(c: Tree)
    requires c == Tree([Source(C1), Source(C2)])
    ensures Lookup(c, "c2") == Some(Plain(Leaf(2)))
  {
    Contents();
    assert "c2" in FrameKeys(c.maps[0]);
  }

  lemma LookupC3(c: Tree)
    requires c == Tree([Source(C1), Source(C2)])
    ensures Lookup(c, "c3") == Some(Plain(Leaf(3)))
  {
    Contents();
    assert "c3" !in FrameKeys(c.maps[0]) && "c3" in FrameKeys(c.maps[1]);
  }

  /** The top-level checks on `MergedTree(d1, d2)`: the first layer wins for
      `a`, keys from either layer are found, `f` raises `KeyError`, `in` agrees,
      and `get('f', 40)` falls back to its default. */
  lemma TopLevel(ls: seq<Layer>)
    requires ls == [D1, D2]
    ensures Build(ls).Success?
    ensures var t := Build(ls).value;
      && Lookup(t, "a") == Some(Plain(Leaf(1)))
      && Lookup(t, "b") == Some(Plain(Leaf(2)))
      && Lookup(t, "d") == Some(Plain(Leaf(4)))
      && Lookup(t, "f") == None
      && Contains(t, "a") && Contains(t, "b") && Contains(t, "d") && !Contains(t, "f")
      && Get(t, "a", Plain(Leaf(10))) == Plain(Leaf(1))
      && Get(t, "b", Plain(Leaf(20))) == Plain(Leaf(2))
      && Get(t, "d", Plain(Leaf(30))) == Plain(Leaf(4))
      && Get(t, "f", Plain(Leaf(40))) == Plain(Leaf(40))
  {
    PairBuilds(ls);
    var t := PairTree;
    LookupA(t);
    LookupB(t);
    LookupD(t);
    LookupF(t);
  }

  /** `c` is a mapping in both layers, so it looks up to a child tree over
      the two sub-mappings, where `c1=1`, `c2=2` (the first layer wins) and
      `c3=3`. */
  lemma Nested(ls: seq<Layer>)
    requires ls == [D1, D2]
    ensures Build(ls).Success?
    ensures var t := Build(ls).value;
      && Lookup(t, "c").Some? && Lookup(t, "c").value.Child?
      && Lookup(Lookup(t, "c").value.tree, "c1") == Some(Plain(Leaf(1)))
      && Lookup(Lookup(t, "c").value.tree, "c2") == Some(Plain(Leaf(2)))
      && Lookup(Lookup(t, "c").value.tree, "c3") == Some(Plain(Leaf(3)))
  {
    PairBuilds(ls);
    LookupC(PairTree);
    var c := Tree([Source(C1), Source(C2)]);
    LookupC1(c);
    LookupC2(c);
    LookupC3(c);
  }

  /** The two sizes of the same view: `MergedTree` ought to report 4 distinct
      keys, while `ChainMapTree` reports its 3 effective layers. */
  lemma Sizes(ls: seq<Layer>)
    requires ls == [D1, D2]
    ensures Build(ls).Success? && Size(Build(ls).value) == 4
    ensures ChainMapTree.ChainBuild(ls).Success? && ChainMapTree.Len(ChainMapTree.ChainBuild(ls).value) == 3
  {
    PairBuilds(ls);
    assert Size(PairTree) == 4 by {
      SizeCountsDistinctKeys(ls);
      LayerKeysOfPair(ls);
      FourKeys();
    }
  }

  lemma FourKeys()
    ensures |{"a", "b", "c", "d"}| == 4
  {
    Distinct();
  }

  lemma LayerKeysOfPair(ls: seq<Layer>)
    requires ls == [D1, D2]
    ensures LayerKeys(ls) == {"a", "b", "c", "d"}
  {
    forall i, k | 0 <= i < |ls| && k in ls[i] ensures k in {"a", "b", "c", "d"} {
      if i == 0 {
        assert k in D1;
      } else {
        assert k in D2;
      }
    }
    assert "a" in ls[0] && "b" in ls[0] && "c" in ls[0] && "d" in ls[1];
  }
}

=== FILE: three_way_scenario.dfy ===
/**
  The second worked example, whose lookups the repository asserts in its
  `__main__` blocks and tests (merged_tree.py:100-138, ChainTreeMap.py:85-124,
  test/test_merge.py:43-81): three settings trees overlapping at two depths,
  read back through chains of `tree[key]` lookups.
 */
module ThreeWayScenario {
  import opened Wrappers
  import opened Values
  import opened Frames
  import opened MergedTree
  import ChainMapTree

  const BA1: Layer := map["baa" := Leaf(1211)]
  const BA3: Layer := map["baa" := Leaf(3211), "bab" := Leaf(3212)]
  const B1: Layer := map["ba" := Node(BA1), "bb" := Leaf(1022)]
  const B3: Layer := map["ba" := Node(BA3), "bb" := Leaf(3022)]
  const E2: Layer := map["ea" := Leaf(2051)]
  const D3: Layer := map["da" := Leaf(3041)]

  /** The three layers, highest priority first. */
  const T1: Layer := map["a" := Leaf(1001), "b" := Node(B1), "c" := Leaf(1003)]
  const T2: Layer := map["a" := Leaf(2001), "e" := Node(E2)]
  const T3: Layer := map["a" := Leaf(3001), "b" := Node(B3), "d" := Node(D3)]

  /** `tree[p[0]][p[1]]...`: a chain of lookups, each one into the child tree
      the previous one returned; `None` when a step misses or hits a leaf. */
  function Walk(t: Tree, p: seq<string>): Option<Entry>
    requires |p| > 0
    decreases |p|
  {
    var r := Lookup(t, p[0]);
    if |p| == 1 then r
    else
      match r
      case Some(Child(c)) => Walk(c, p[1..])
      case _ => None
  }

  /** The keys of the example are distinct strings. */
  lemma Distinct()
    ensures "a" != "b" && "a" != "c" && "a" != "d" && "a" != "e"
    ensures "b" != "c" && "b" != "d" && "b" != "e" && "c" != "d" && "c" != "e" && "d" != "e"
    ensures "ba" != "bb" && "baa" != "bab"
  {
  }

  /** A path of one key that holds no mapping in any layer walks to the value
      of the first layer that has it. */
  lemma WalkToLeaf(ls: seq<Layer>, p: seq<string>, v: Value)
    requires Build(ls).Success? && |p| == 1 && p[0] !in KidKeys(ls) && First(ls, p[0]) == Some(v)
    ensures Walk(Build(ls).value, p) == Some(Plain(v))
  {
    LookupFirst(ls, p[0]);
  }

  /** A path through a mapping key continues in the child built from that
      key's sub-mappings. */
  lemma WalkIntoChild(ls: seq<Layer>, p: seq<string>)
    requires Build(ls).Success? && |p| > 1 && p[0] in KidKeys(ls)
    ensures AllNodes(KidValues(ls, p[0])) && Build(KidLayers(ls, p[0])).Success?
    ensures Walk(Build(ls).value, p) == Walk(Build(KidLayers(ls, p[0])).value, p[1..])
  {
    LookupNested(ls, p[0]);
  }

  /** The child under `k` can be built: `k` holds a mapping in every layer
      that has it, and the child construction succeeds. */
  predicate ChildBuilds(ls: seq<Layer>, k: string)
  {
    AllNodes(KidValues(ls, k)) && Build(KidLayers(ls, k)).Success?
  }

  /** Keys drawn from three good keys are good. */
  lemma OneOfThree(s: set<string>, k1: string, k2: string, k3: string, good: set<string>)
    requires s <= {k1, k2, k3} && k1 in good && k2 in good && k3 in good
    ensures s <= good
  {
    forall k | k in s ensures k in good {
      if k != k1 && k != k2 {
        assert k == k3;
      }
    }
  }

  /** A construction succeeds once each of its (at most three) mapping keys
      has a child that builds. */
  lemma BuildsFromKids(ls: seq<Layer>, k1: string, k2: string, k3: string)
    requires KidKeys(ls) <= {k1, k2, k3}
    requires ChildBuilds(ls, k1) && ChildBuilds(ls, k2) && ChildBuilds(ls, k3)
    ensures Build(ls).Success?
  {
    var good := set j | j in {k1, k2, k3} && ChildBuilds(ls, j);
    assert k1 in good && k2 in good && k3 in good;
    OneOfThree(KidKeys(ls), k1, k2, k3, good);
    assert KidsBuild(ls);
    BuildUnfold(ls);
  }

  /** Leaf-only layers build. */
  lemma FlatBuilds(ls: seq<Layer>)
    requires KidKeys(ls) == {}
    ensures Build(ls).Success?
  {
    FlatBuild(ls);
  }

  /** `b.ba`: two leaf-only mappings; `baa` from the first, `bab` from the
      second, the only one that has it. */
  lemma BaFacts(bas: seq<Layer>)
    requires bas == [BA1, BA3]
    ensures KidKeys(bas) == {}
    ensures First(bas, "baa") == Some(Leaf(1211)) && First(bas, "bab") == Some(Leaf(3212))
  {
    Distinct();
    forall i, k | 0 <= i < |bas| && k in bas[i] ensures bas[i][k].Leaf? {
      if i == 0 {
        assert k in BA1;
      } else {
        assert k in BA3;
      }
    }
    assert "bab" !in bas[0] && bas[1..] == [BA3];
  }

  lemma BKidKeys(bs: seq<Layer>)
    requires bs == [B1, B3]
    ensures KidKeys(bs) == {"ba"}
  {
    forall i, k | 0 <= i < |bs| && k in bs[i] && bs[i][k].Node? ensures k == "ba" {
      if i == 0 {
        assert k in B1;
      } else {
        assert k in B3;
      }
    }
    assert "ba" in bs[0] && bs[0]["ba"].Node?;
  }

  lemma BKidLayers(bs: seq<Layer>)
    requires bs == [B1, B3]
    ensures AllNodes(KidValues(bs, "ba")) && KidLayers(bs, "ba") == [BA1, BA3]
  {
    assert bs[1..] == [B3];
    assert [B3][1..] == [];
    assert KidValues([B3], "ba") == [Node(BA3)];
    assert KidValues(bs, "ba") == [Node(BA1), Node(BA3)];
  }

  /** `b`: two mappings that both hold `ba` as a mapping and `bb` as a leaf. */
  lemma BFacts(bs: seq<Layer>)
    requires bs == [B1, B3]
    ensures KidKeys(bs) == {"ba"} && "bb" !in KidKeys(bs)
    ensures AllNodes(KidValues(bs, "ba")) && KidLayers(bs, "ba") == [BA1, BA3]
    ensures First(bs, "bb") == Some(Leaf(1022))
  {
    Distinct();
    BKidKeys(bs);
    BKidLayers(bs);
    assert "bb" in bs[0] && bs[0]["bb"] == Leaf(1022);
  }

  /** `d` and `e`: one leaf-only mapping each. */
  lemma DFacts(ds: seq<Layer>)
    requires ds == [D3]
    ensures KidKeys(ds) == {} && First(ds, "da") == Some(Leaf(3041))
  {
    forall i, k | 0 <= i < |ds| && k in ds[i] ensures ds[i][k].Leaf? {
      assert k in D3;
    }
  }

  lemma EFacts(es: seq<Layer>)
    requires es == [E2]
    ensures KidKeys(es) == {} && First(es, "ea") == Some(Leaf(2051))
  {
    forall i, k | 0 <= i < |es| && k in es[i] ensures es[i][k].Leaf? {
      assert k in E2;
    }
  }

  lemma TopKidKeys(ls: seq<Layer>)
    requires ls == [T1, T2, T3]
    ensures KidKeys(ls) == {"b", "d", "e"}
  {
    forall i, k | 0 <= i < |ls| && k in ls[i] && ls[i][k].Node? ensures k in {"b", "d", "e"} {
      if i == 0 {
        assert k in T1;
      } else if i == 1 {
        assert k in T2;
      } else {
        assert k in T3;
      }
    }
    assert "b" in ls[0] && ls[0]["b"].Node?;
    assert "e" in ls[1] && ls[1]["e"].Node?;
    assert "d" in ls[2] && ls[2]["d"].Node?;
  }

  lemma TopKidLayerB(ls: seq<Layer>)
    requires ls == [T1, T2, T3]
    ensures AllNodes(KidValues(ls, "b")) && KidLayers(ls, "b") == [B1, B3]
  {
    Distinct();
    assert ls[1..] == [T2, T3] && [T2, T3][1..] == [T3] && [T3][1..] == [];
    assert KidValues([T3], "b") == [Node(B3)];
    assert KidValues([T2, T3], "b") == [Node(B3)];
    assert KidValues(ls, "b") == [Node(B1), Node(B3)];
  }

  lemma TopKidLayerD(ls: seq<Layer>)
    requires ls == [T1, T2, T3]
    ensures AllNodes(KidValues(ls, "d")) && KidLayers(ls, "d") == [D3]
  {
    Distinct();
    assert ls[1..] == [T2, T3] && [T2, T3][1..] == [T3] && [T3][1..] == [];
    assert KidValues([T3], "d") == [Node(D3)];
    assert KidValues([T2, T3], "d") == [Node(D3)];
    assert KidValues(ls, "d") == [Node(D3)];
  }

  lemma TopKidLayerE(ls: seq<Layer>)
    requires ls == [T1, T2, T3]
    ensures AllNodes(KidValues(ls, "e")) && KidLayers(ls, "e") == [E2]
  {
    Distinct();
    assert ls[1..] == [T2, T3] && [T2, T3][1..] == [T3] && [T3][1..] == [];
    assert KidValues([T3], "e") == [];
    assert KidValues([T2, T3], "e") == [Node(E2)];
    assert KidValues(ls, "e") == [Node(E2)];
  }

  /** The top level: `a` and `c` are leaves wherever they occur, `a` taken
      from the first layer although all three have it. */
  lemma TopFacts(ls: seq<Layer>)
    requires ls == [T1, T2, T3]
    ensures "a" !in KidKeys(ls) && "c" !in KidKeys(ls)
    ensures First(ls, "a") == Some(Leaf(1001)) && First(ls, "c") == Some(Leaf(1003))
  {
    TopLeafKeys(ls);
    assert "a" in ls[0] && ls[0]["a"] == Leaf(1001) && "c" in ls[0] && ls[0]["c"] == Leaf(1003);
  }

  lemma TopLeafKeys(ls: seq<Layer>)
    requires ls == [T1, T2, T3]
    ensures "a" !in KidKeys(ls) && "c" !in KidKeys(ls)
  {
    TopKidKeys(ls);
    NeitherAnorC(KidKeys(ls));
  }

  lemma NeitherAnorC(ks: set<string>)
    requires ks == {"b", "d", "e"}
    ensures "a" !in ks && "c" !in ks
  {
    Distinct();
  }

  /** The middle level builds: `b.ba` is leaf-only, so `b` builds too. */
  lemma BBuilds(bs: seq<Layer>)
    requires bs == [B1, B3]
    ensures Build(bs).Success?
  {
    BFacts(bs);
    BaFacts(KidLayers(bs, "ba"));
    FlatBuilds(KidLayers(bs, "ba"));
    BuildsFromKids(bs, "ba", "ba", "ba");
  }

  /** `MergedTree(*testDicts)` succeeds: every mapping key's child builds. */
  lemma TopBuilds(ls: seq<Layer>)
    requires ls == [T1, T2, T3]
    ensures Build(ls).Success?
  {
    TopKidKeys(ls);
    TopKidLayerB(ls);
    TopKidLayerD(ls);
    TopKidLayerE(ls);
    BBuilds(KidLayers(ls, "b"));
    DFacts(KidLayers(ls, "d"));
    FlatBuilds(KidLayers(ls, "d"));
    EFacts(KidLayers(ls, "e"));
    FlatBuilds(KidLayers(ls, "e"));
    BuildsFromKids(ls, "b", "d", "e");
  }

  /** The top-level leaves: `a` from the first layer although all three have
      it, `c` from the only layer that has it. */
  lemma TopLeaves(ls: seq<Layer>)
    requires ls == [T1, T2, T3]
    ensures Build(ls).Success?
    ensures Walk(Build(ls).value, ["a"]) == Some(Plain(Leaf(1001)))
    ensures Walk(Build(ls).value, ["c"]) == Some(Plain(Leaf(1003)))
  {
    TopBuilds(ls);
    TopFacts(ls);
    WalkToLeaf(ls, ["a"], Leaf(1001));
    WalkToLeaf(ls, ["c"], Leaf(1003));
  }

  /** The paths through `b`, which two layers hold as mappings at two depths:
      `b.ba.baa` from the first layer, `b.ba.bab` from the third (the only one
      that has it), `b.bb` from the first. */
  lemma PathsThroughB(ls: seq<Layer>)
    requires ls == [T1, T2, T3]
    ensures Build(ls).Success?
    ensures Walk(Build(ls).value, ["b", "ba", "baa"]) == Some(Plain(Leaf(1211)))
    ensures Walk(Build(ls).value, ["b", "ba", "bab"]) == Some(Plain(Leaf(3212)))
    ensures Walk(Build(ls).value, ["b", "bb"]) == Some(Plain(Leaf(1022)))
  {
    TopBuilds(ls);
    TopKidKeys(ls);
    TopKidLayerB(ls);
    var bs := KidLayers(ls, "b");
    BBuilds(bs);
    BFacts(bs);
    var bas := KidLayers(bs, "ba");
    BaFacts(bas);
    FlatBuilds(bas);
    var p1, p2, p3 := ["b", "ba", "baa"], ["b", "ba", "bab"], ["b", "bb"];
    WalkIntoChild(ls, p1);
    WalkIntoChild(bs, p1[1..]);
    WalkToLeaf(bas, p1[1..][1..], Leaf(1211));
    WalkIntoChild(ls, p2);
    WalkIntoChild(bs, p2[1..]);
    WalkToLeaf(bas, p2[1..][1..], Leaf(3212));
    WalkIntoChild(ls, p3);
    WalkToLeaf(bs, p3[1..], Leaf(1022));
  }

  /** The paths through `d` and `e`, each a mapping in a single lower layer. */
  lemma PathsThroughDE(ls: seq<Layer>)
    requires ls == [T1, T2, T3]
    ensures Build(ls).Success?
    ensures Walk(Build(ls).value, ["d", "da"]) == Some(Plain(Leaf(3041)))
    ensures Walk(Build(ls).value, ["e", "ea"]) == Some(Plain(Leaf(2051)))
  {
    TopBuilds(ls);
    TopKidKeys(ls);
    TopKidLayerD(ls);
    TopKidLayerE(ls);
    var ds, es := KidLayers(ls, "d"), KidLayers(ls, "e");
    DFacts(ds);
    EFacts(es);
    FlatBuilds(ds);
    FlatBuilds(es);
    var p1, p2 := ["d", "da"], ["e", "ea"];
    WalkIntoChild(ls, p1);
    WalkIntoChild(ls, p2);
    WalkToLeaf(ds, p1[1..], Leaf(3041));
    WalkToLeaf(es, p2[1..], Leaf(2051));
  }

  /** `ChainMapTree(*testDicts)` builds the same tree, so every one of the
      checks above holds for it as well. */
  lemma ChainSame(ls: seq<Layer>)
    requires ls == [T1, T2, T3]
    ensures Build(ls).Success? && ChainMapTree.ChainBuild(ls) == Success(Build(ls).value)
  {
    TopBuilds(ls);
    ChainMapTree.ChainAgrees(ls);
  }
}

=== FILE: values.dfy ===
/**
  The source data an overlay is built from: nested mappings whose leaves are
  opaque values, and the per-key helpers both tree classes share (collecting
  the values a key has across the layers, and the depth measure that makes
  the recursive construction terminate).
 */
module Values {
  import opened Wrappers

  /** A value stored in a source mapping: either a nested mapping or a leaf.
      The leaf payload stands for any non-mapping Python value (number, string,
      list, ...); the construction never looks inside it. */
  datatype Value = Leaf(n: int) | Node(children: map<string, Value>)

  /** One source mapping handed to a tree constructor. */
  type Layer = map<string, Value>

  /** Nesting depth of a value: 0 for a leaf, one more than its deepest child for a node. */
  ghost function Depth(v: Value): nat
  {
    match v
    case Leaf(_) => 0
    case Node(m) => 1 + MaxDepth(v, m.Keys)
  }

  /** The largest depth among the children of `owner` under the keys `ks`. */
  ghost function MaxDepth(owner: Value, ks: set<string>): nat
    requires owner.Node? && ks <= owner.children.Keys
    decreases owner, ks
  {
    if ks == {} then 0
    else
      var k :| k in ks;
      var a := Depth(owner.children[k]);
      var b := MaxDepth(owner, ks - {k});
      if a < b then b else a
  }

  lemma {:induction false} MaxDepthBound(owner: Value, ks: set<string>, k: string)
    requires owner.Node? && ks <= owner.children.Keys && k in ks
    ensures Depth(owner.children[k]) <= MaxDepth(owner, ks)
    decreases ks
  {
    var k' :| k' in ks && MaxDepth(owner, ks) == (
      var a := Depth(owner.children[k']);
      var b := MaxDepth(owner, ks - {k'});
      if a < b then b else a);
    if k != k' {
      MaxDepthBound(owner, ks - {k'}, k);
    }
  }

  /** A child of a node is strictly shallower than the node. */
  lemma ChildShallower(v: Value, k: string)
    requires v.Node? && k in v.children
    ensures Depth(v.children[k]) < Depth(v)
  {
    MaxDepthBound(v, v.children.Keys, k);
  }

  /** Every nested mapping directly inside a layer is shallower than the layer. */
  lemma LayerChildrenShallower(l: Layer)
    ensures forall k :: k in l && l[k].Node? ==> Depth(Node(l[k].children)) < Depth(Node(l))
  {
    forall k | k in l && l[k].Node?
      ensures Depth(Node(l[k].children)) < Depth(Node(l))
    {
      ChildShallower(Node(l), k);
    }
  }

  /** The deepest layer of a layer list (0 for no layers). */
  ghost function LayersDepth(ls: seq<Layer>): nat
  {
    if |ls| == 0 then 0
    else
      var a := Depth(Node(ls[0]));
      var b := LayersDepth(ls[1..]);
      if a < b then b else a
  }

  lemma {:induction false} LayersDepthBound(ls: seq<Layer>)
    ensures forall i :: 0 <= i < |ls| ==> Depth(Node(ls[i])) <= LayersDepth(ls)
  {
    if |ls| > 0 {
      LayersDepthBound(ls[1..]);
      assert forall i :: 1 <= i < |ls| ==> ls[i] == ls[1..][i - 1];
    }
  }

  lemma {:induction false} LayersDepthLeast(ls: seq<Layer>, b: nat)
    requires forall i :: 0 <= i < |ls| ==> Depth(Node(ls[i])) <= b
    ensures LayersDepth(ls) <= b
  {
    if |ls| > 0 {
      assert forall i :: 0 <= i < |ls[1..]| ==> ls[1..][i] == ls[i + 1];
      LayersDepthLeast(ls[1..], b);
    }
  }

  /** Every key that is present in at least one layer. */
  function LayerKeys(ls: seq<Layer>): set<string>
  {
    set i, k | 0 <= i < |ls| && k in ls[i] :: k
  }

  /** The keys that hold a nested mapping in at least one layer
      (merged_tree.py `kid_keys`, ChainTreeMap.py `map_keys`). */
  function KidKeys(ls: seq<Layer>): (ks: set<string>)
    ensures forall k :: k in ks <==> exists i :: 0 <= i < |ls| && k in ls[i] && ls[i][k].Node?
    ensures ks <= LayerKeys(ls)
  {
    set i, k | 0 <= i < |ls| && k in ls[i] && ls[i][k].Node? :: k
  }

  /** The values the layers that contain `k` give it, in layer order
      (`[m[key] for m in maps if key in m]`). */
  function KidValues(ls: seq<Layer>, k: string): seq<Value>
  {
    if |ls| == 0 then []
    else
      var rest := KidValues(ls[1..], k);
      if k in ls[0] then [ls[0][k]] + rest else rest
  }

  /** The collected values are exactly the values of the layers containing the key. */
  lemma {:induction false} KidValuesOrigin(ls: seq<Layer>, k: string)
    ensures |KidValues(ls, k)| <= |ls|
    ensures forall v :: v in KidValues(ls, k) <==> exists i :: 0 <= i < |ls| && k in ls[i] && ls[i][k] == v
  {
    if |ls| > 0 {
      var vs, rest := KidValues(ls, k), KidValues(ls[1..], k);
      KidValuesOrigin(ls[1..], k);
      assert forall i :: 1 <= i < |ls| ==> ls[i] == ls[1..][i - 1];
      assert forall v :: v in vs <==> (k in ls[0] && v == ls[0][k]) || v in rest;
      forall v | v in rest ensures exists i :: 0 <= i < |ls| && k in ls[i] && ls[i][k] == v {
        var i :| 0 <= i < |ls[1..]| && k in ls[1..][i] && ls[1..][i][k] == v;
        assert ls[i + 1] == ls[1..][i];
      }
    }
  }

  /** A key whose values are all mappings is a mapping key as soon as any layer has it. */
  lemma NodeKeyPresence(ls: seq<Layer>, k: string)
    requires AllNodes(KidValues(ls, k))
    ensures (exists i :: 0 <= i < |ls| && k in ls[i]) ==> k in KidKeys(ls)
  {
    KidValuesOrigin(ls, k);
    if i :| 0 <= i < |ls| && k in ls[i] {
      assert ls[i][k] in KidValues(ls, k);
    }
  }

  /** A key no layer contains has no values to collect. */
  lemma {:induction false} KidValuesAbsent(ls: seq<Layer>, k: string)
    requires forall i :: 0 <= i < |ls| ==> k !in ls[i]
    ensures KidValues(ls, k) == []
  {
    if |ls| > 0 {
      assert forall i :: 0 <= i < |ls[1..]| ==> ls[1..][i] == ls[i + 1];
      KidValuesAbsent(ls[1..], k);
    }
  }

  /** Collecting a key's values distributes over concatenation of layer lists:
      the values keep exactly the relative order of their layers. */
  lemma {:induction false} KidValuesAppend(xs: seq<Layer>, ys: seq<Layer>, k: string)
    ensures KidValues(xs + ys, k) == KidValues(xs, k) + KidValues(ys, k)
  {
    if |xs| == 0 {
      assert xs + ys == ys;
    } else {
      assert (xs + ys)[1..] == xs[1..] + ys;
      KidValuesAppend(xs[1..], ys, k);
    }
  }

  /** The value layer `i` gives `k`, if any, sits between the values of the
      layers before it and those after it: collection keeps layer order. */
  lemma KidValuesSplit(ls: seq<Layer>, k: string, i: int)
    requires 0 <= i < |ls|
    ensures KidValues(ls, k)
         == KidValues(ls[..i], k) + (if k in ls[i] then [ls[i][k]] else []) + KidValues(ls[i + 1..], k)
  {
    assert ls == ls[..i] + ls[i..];
    KidValuesAppend(ls[..i], ls[i..], k);
    assert ls[i..][0] == ls[i];
    assert ls[i..][1..] == ls[i + 1..];
  }

  /** True when every value in `vs` is a nested mapping. */
  predicate AllNodes(vs: seq<Value>)
  {
    forall n :: 0 <= n < |vs| ==> vs[n].Node?
  }

  /** The nested mappings inside a list of node values. */
  function Children(vs: seq<Value>): seq<Layer>
    requires AllNodes(vs)
  {
    seq(|vs|, n requires 0 <= n < |vs| => vs[n].children)
  }

  /** The layers a child tree under `k` is built from: the sub-mappings every
      layer containing `k` holds there, in the original priority order. */
  function KidLayers(ls: seq<Layer>, k: string): seq<Layer>
    requires AllNodes(KidValues(ls, k))
  {
    Children(KidValues(ls, k))
  }

  /** A child layer list is strictly shallower than the list it came from;
      this is what makes every recursive construction terminate. */
  lemma KidsShallower(ls: seq<Layer>)
    ensures forall k :: k in KidKeys(ls) && AllNodes(KidValues(ls, k)) ==>
      LayersDepth(KidLayers(ls, k)) < LayersDepth(ls)
  {
    forall k | k in KidKeys(ls) && AllNodes(KidValues(ls, k))
      ensures LayersDepth(KidLayers(ls, k)) < LayersDepth(ls)
    {
      KidShallower(ls, k);
    }
  }

  lemma KidShallower(ls: seq<Layer>, k: string)
    requires k in KidKeys(ls) && AllNodes(KidValues(ls, k))
    ensures LayersDepth(KidLayers(ls, k)) < LayersDepth(ls)
  {
    var vs := KidValues(ls, k);
    var cs := KidLayers(ls, k);
    KidValuesOrigin(ls, k);
    LayersDepthBound(ls);
    var i0 :| 0 <= i0 < |ls| && k in ls[i0] && ls[i0][k].Node?;
    ChildShallower(Node(ls[i0]), k);
    var b := LayersDepth(ls) - 1;
    forall n | 0 <= n < |cs|
      ensures Depth(Node(cs[n])) <= b
    {
      assert vs[n] in vs;
      var i :| 0 <= i < |ls| && k in ls[i] && ls[i][k] == vs[n];
      ChildShallower(Node(ls[i]), k);
    }
    LayersDepthLeast(cs, b);
  }

  /** The value of `k` in the first layer that contains it: the flat
      first-hit lookup of a chain of mappings. */
  function First(ls: seq<Layer>, k: string): (r: Option<Value>)
    ensures r.None? <==> forall i :: 0 <= i < |ls| ==> k !in ls[i]
    ensures r.Some? ==>
      exists i :: 0 <= i < |ls| && k in ls[i] && r.value == ls[i][k] && forall j :: 0 <= j < i ==> k !in ls[j]
  {
    if |ls| == 0 then None
    else if k in ls[0] then Some(ls[0][k])
    else
      assert forall i :: 1 <= i < |ls| ==> ls[i] == ls[1..][i - 1];
      First(ls[1..], k)
  }
}

=== FILE: wrappers.dfy ===
/** Failure-carrying result types used throughout the model. */
module Wrappers {

  /** A value that may be absent: a lookup miss is `None`. */
  datatype Option<+T> = None | Some(value: T) {

    /** The carried value, or `default` when absent. */
    function GetOr(default: T): T
    {
      match this
      case Some(v) => v
      case None => default
    }
  }

  /** The outcome of an operation that may raise: `Failure` carries what was raised. */
  datatype Result<+R, +E> = Success(value: R) | Failure(error: E)
}
